=== FILE: README.md ===
# Flapjack's Redis record layer, modelled in Dafny

Flapjack keeps its domain objects in Redis through a small mixin,
`Flapjack::Data::RedisRecord`. A record class declares typed attributes and
indexed attributes. Its records are stored as follows:

- simple attributes go in the hash `<class_key>:<id>:attrs`;
- each list, set or hash attribute goes under its own key `<class_key>:<id>:attrs:<name>`;
- the record's id goes in the class's id-set `<class_key>::ids`;
- for every indexed attribute, the id goes in the value index `<class_key>::by_<att>:<value>`;
- to-many associations are the id-sets `<owner record key>:<singular>_ids`.

This project models that layer on an abstract Redis store. The store is an
immutable map from key names to a set, a hash or a list. An empty collection
is never stored. A write aimed at a key of another kind is modelled as
refused, leaving the store as it was; Redis would reply WRONGTYPE there,
which redis-rb raises (see "## Left out").
Each `save` and `destroy` is one MULTI/EXEC batch, so each is one transition
of the store. The model covers:

- the class-level declarations (`define_attributes`, `index_by`) and lookups
  (`count`, `ids`, `add_id`, `delete_id`, `exists?`, `all`, `delete_all`,
  `filter`, `find_by_id`, `find_by`, `find_by_set_intersection`);
- the attribute writer with its dirty tracking, `load`/`refresh`, `save`,
  `destroy` and `persisted?`;
- the type validator;
- the value index (`IndexAssociation`);
- to-many associations (`HasManyAssociation`);
- the set-intersection query object (`Filter`);
- the decisions of the Pushover gateway's `deliver`: the colour and priority
  of a message, the configuration check, the channel, the message type, and
  when a reply counts as a sent message.

Modules, by file:

- `ruby.dfy`: the Ruby values the layer handles. It also models the core
  methods it relies on: `to_s`, `to_i`, `blank?`, `downcase` and `is_a?`.
- `redis_store.dfy`: the store and the Redis commands used. These are SADD,
  SREM, SMEMBERS, SCARD, SINTER, SINTERSTORE, SDIFF, HGETALL, HMSET/HDEL,
  RPUSH, LRANGE and DEL.
- `keys.dfy`: the key names, and why they do not collide when ids and
  attribute names contain no `:`.
- `schema.dfy`: attribute types, `define_attributes`, `index_by`, and the
  visibility of the class-level methods.
- `validation.dfy`: `TypeValidator`.
- `index.dfy`: `IndexAssociation`.
- `records.dfy`: the attribute writer, `load`/`refresh`, `save`, `destroy`.
- `save_proofs.dfy`: what a save and a destroy do to the id-set, the indexes
  and the attribute keys, and the save/reload round trips.
- `queries.dfy`: the class-level lookups and `delete_all`.
- `filters.dfy`: `Filter`.
- `associations.dfy`: `HasManyAssociation`.
- `pushover.dfy`: the Pushover decisions.

Two things the source draws at random are parameters. The 32-hex-digit id a
record gets on its first save is `newId`, constrained to 32 lower-case hex
digits. The scratch-set suffix is `hex`, with the requirement that its key
does not exist. The JSON serializer `Oj.dump` is the function parameter
`dump`.

## Model

| member | source | states |
|---|---|---|
| Schema.TypeNamesRoundTrip | lib/flapjack/data/redis_record.rb:25-33 | the nine attribute type names and the nine attribute types correspond one to one |
| Schema.NewEntityTypeDeclaresId | lib/flapjack/data/redis_record.rb:65 | the mixin's `define_attributes :id => :string` on a bare class succeeds and yields a class with only `id`, as a string, and no index; that class meets what the proofs require of a class whenever its key has no `:` |
| Schema.DefineAttributes | lib/flapjack/data/redis_record.rb:146-154 | declaring succeeds exactly when every type name is known. Otherwise it fails on the first unknown pair, naming its attribute and type. On success each pair's attribute gets its type, other attributes keep theirs, and nothing else of the class changes |
| Schema.IndexBy | lib/flapjack/data/redis_record.rb:161-167 | an attribute is indexed afterwards exactly when it was before or is among the arguments; declared types are untouched |
| Validation.AcceptsByType | lib/flapjack/data/redis_record.rb:25-33 | which values each type accepts. For example, a timestamp accepts integers and DateTimes, a list accepts an array, a set or a hash, and json_string accepts strings, integers, arrays, sets and hashes |
| Validation.Validate | lib/flapjack/data/redis_record.rb:649-662 | an attribute has an error exactly when it is declared, non-nil and of a class its type does not accept. Each error lists the type's classes. All attributes are visited, and there are no errors exactly when the record is valid |
| Index.IndexKeyFor | lib/flapjack/data/redis_record.rb:490-504 | a value resolves to an index entry exactly when it is a String, Symbol, true or false, and then to `<class_key>::by_<att>:<to_s>` |
| Index.IndexIds | lib/flapjack/data/redis_record.rb:470-473 | `ids` is the entry's members, and empty for a value with no entry |
| Index.IndexCount | lib/flapjack/data/redis_record.rb:465-468 | `count` is nil exactly when the value has no entry, and otherwise the number of ids |
| Index.IndexAddId | lib/flapjack/data/redis_record.rb:480-483 | `add_id` changes nothing and replies nil without an entry. Otherwise it adds the id to that entry alone and replies whether the id was new |
| Index.IndexDeleteId | lib/flapjack/data/redis_record.rb:475-478 | `delete_id` changes nothing and replies nil without an entry. Otherwise it removes the id from that entry alone and replies whether it was there |
| Index.AddIdIdempotent | lib/flapjack/data/redis_record.rb:480-483 | adding an id a second time leaves the value's ids as the first addition did |
| Index.AddThenDelete | lib/flapjack/data/redis_record.rb:475-483 | after `add_id` the id is listed exactly when the value is indexable, and `delete_id` removes it again |
| Records.Assign | lib/flapjack/data/redis_record.rb:423-440 | writing the current value is a no-op; an undeclared attribute has no writer. Assigning a different id once one is set raises, so the id never changes. Other attributes are kept, and the change is recorded against the value from before the first change |
| Records.Load | lib/flapjack/data/redis_record.rb:264-314 | a loaded record has no pending or previous changes. Its attributes are `id`, the declared fields stored in its hash, and every complex attribute. When the hash holds no `id` field and `id` is not a complex attribute, its id is the one it was loaded by |
| Records.Refresh | lib/flapjack/data/redis_record.rb:273-314 | refreshing raises exactly when the record has no id, and then leaves the record holding only its nil `id` with no change tracking. Otherwise it clears all change tracking, reads each complex attribute as the content of its own key, and reads each other declared attribute as its hash field decoded by type, or nil when the field is absent |
| Records.WithId | lib/flapjack/data/redis_record.rb:330 | `id ||= SecureRandom.hex(16)`: a set id is kept, a nil id becomes the drawn one, and nothing else changes |
| Records.ReplaceComplex | lib/flapjack/data/redis_record.rb:369-381 | each complex attribute's key is deleted and then holds the new value's elements, or is absent when the value is blank. No other key changes |
| Records.Save | lib/flapjack/data/redis_record.rb:327-398 | save fails exactly when validation reports errors, and then writes nothing. Otherwise the record gets its id, keeps its other attributes, and clears its pending changes. The pending changes become the previous changes: every attribute's change other than `id` on every save, all of them for a record that already had an id, and, on a first save, `id` from nil to the drawn id |
| Records.Destroy | lib/flapjack/data/redis_record.rb:400-416 | destroy removes the id from the id-set and from the entry of every indexed value the record holds, and deletes the attribute hash. Each such entry keeps every other id. It fails for a record with no id |
| Records.Committed | lib/flapjack/data/redis_record.rb:330-396 | the record a successful save leaves: it has its id, its other attributes, no pending changes, and its pending changes as previous changes, with `id` from nil to the drawn id on a first save |
| SaveProofs.SaveStaysInNamespace | lib/flapjack/data/redis_record.rb:338-392 | a save writes no key outside `<class_key>:` |
| SaveProofs.SaveAgreesOutsideFootprint | lib/flapjack/data/redis_record.rb:338-392 | a save writes only the id-set, the attribute hash, the complex keys and the index entries of changed indexed attributes |
| SaveProofs.SaveAddsId | lib/flapjack/data/redis_record.rb:389-390 | after a save the id-set is the old one plus the record's id, and the record is persisted |
| SaveProofs.SaveMovesIndexEntry | lib/flapjack/data/redis_record.rb:340-387 | for a changed indexed attribute, the new value's entry is its old members plus the id after a save, and the old value's entry, when different, is its old members without the id |
| SaveProofs.SaveKeepsUnchangedIndexes | lib/flapjack/data/redis_record.rb:332-336 | the entries of an unchanged attribute are untouched by a save |
| SaveProofs.SaveWritesField | lib/flapjack/data/redis_record.rb:346-367 | each string, integer, boolean or json_string attribute is stored in the hash in its encoded form, or absent when it encodes to nothing |
| SaveProofs.LoadSimple | lib/flapjack/data/redis_record.rb:282-296 | a loaded simple attribute is its stored field decoded by type, or nil when the field is absent |
| SaveProofs.LoadComplex | lib/flapjack/data/redis_record.rb:298-310 | a loaded complex attribute is the content of its own key |
| SaveProofs.DowncaseBooleans | lib/flapjack/data/redis_record.rb:290 | an illustration: "true" reads back as true and "false" as false; `SaveProofs.FieldRoundTrip` states the general boolean case |
| SaveProofs.FieldRoundTrip | lib/flapjack/data/redis_record.rb:282-296 | encoding then decoding gives back a non-blank string, any integer, and the truth value of a boolean. For json_string it gives the doubly serialized text |
| SaveProofs.ReadBackFromHash | lib/flapjack/data/redis_record.rb:282-296 | loading decodes exactly the field the hash holds |
| SaveProofs.SaveReloadsField | lib/flapjack/data/redis_record.rb:346-367 | loading a saved record gives each field attribute back as its encoding decodes |
| SaveProofs.SaveReloadsSimple | lib/flapjack/data/redis_record.rb:351-362 | a saved and reloaded record has its non-blank strings, its integers and its booleans' truth values |
| SaveProofs.ComplexRoundTrip | lib/flapjack/data/redis_record.rb:298-310 | a stored set or hash reads back equal, a stored array in order, a set saved as a list with the same elements, and nil as empty |
| SaveProofs.SaveLeavesComplexKey | lib/flapjack/data/redis_record.rb:369-381 | after a save a blank complex attribute has no key, and a non-blank one's key holds exactly its elements |
| SaveProofs.SaveReloadsComplex | lib/flapjack/data/redis_record.rb:369-381 | a saved and reloaded record has its sets, its hashes and its arrays, in order |
| SaveProofs.DestroyFrame | lib/flapjack/data/redis_record.rb:400-416 | destroy touches only the id-set, the attribute hash and the entries of the values the record holds |
| SaveProofs.DestroyKeepsComplexKeys | lib/flapjack/data/redis_record.rb:411-414 | destroy leaves the complex attributes' keys in place |
| SaveProofs.DestroyStaysInNamespace | lib/flapjack/data/redis_record.rb:400-416 | destroy touches no key outside `<class_key>:`, and hence no other class's association sets |
| SaveProofs.SaveThenDestroy | lib/flapjack/data/redis_record.rb:260-262 | a saved record is persisted, and destroying it makes it not persisted |
| Queries.AddId | lib/flapjack/data/redis_record.rb:79-81 | `add_id` adds the id's text to the id-set and nothing else, and replies whether it was new |
| Queries.DeleteId | lib/flapjack/data/redis_record.rb:83-85 | `delete_id` removes the id's text from the id-set and nothing else, and replies whether it was there |
| Queries.IdSetLaws | lib/flapjack/data/redis_record.rb:79-89 | after `add_id` the id exists; adding it again changes neither the count nor the reply; after `delete_id` it does not exist |
| Queries.FindById | lib/flapjack/data/redis_record.rb:104-107 | `find_by_id` finds a record exactly when the id is truthy and in the id-set, and loads it by that id |
| Queries.All | lib/flapjack/data/redis_record.rb:91-93 | `all` holds exactly the ids in the id-set, each with the record loaded by that id |
| Queries.AllIsFindById | lib/flapjack/data/redis_record.rb:91-107 | an id is in `all` exactly when `find_by_id` finds it, and both give the same record |
| Queries.FindBy | lib/flapjack/data/redis_record.rb:109-113 | `find_by` is nil exactly for an unindexed attribute; otherwise it holds exactly the ids of the value's entry, each with the record loaded by that id, and none for an unindexable value |
| Queries.FilterMatchesFindBy | lib/flapjack/data/redis_record.rb:99-113 | for an indexed attribute and an indexable value, `find_by` and `filter(att => value).all` give the same records |
| Queries.SaveThenFindById | lib/flapjack/data/redis_record.rb:104-107 | a saved record is found by its id |
| Queries.SaveThenFindBy | lib/flapjack/data/redis_record.rb:109-113 | a saved record is found by the new value of a changed indexed attribute |
| Queries.DestroyDropsOnlyItsId | lib/flapjack/data/redis_record.rb:402 | destroy removes exactly its own id from the id-set |
| Queries.DestroyKeepsOrDropsHashes | lib/flapjack/data/redis_record.rb:411 | after destroy every hash is either unchanged or gone |
| Queries.DeleteAll | lib/flapjack/data/redis_record.rb:95-97 | `delete_all` empties the id-set and touches nothing outside the class's keys |
| Queries.LoadFromKey | lib/flapjack/data/redis_record.rb:119-122 | a key yields a record exactly when it matches `<class_key>:<id>:attrs:<name>` for a stored id |
| Queries.FindBySetIntersection | lib/flapjack/data/redis_record.rb:116-138 | no values gives nil. Otherwise the found keys are exactly the attribute keys holding every value. A key gives a record exactly when its id is stored, and the scratch set leaves the store as it was. The error case leaves the scratch set behind |
| Queries.ScanFindsSuperset | lib/flapjack/data/redis_record.rb:129-134 | a record whose set holds every value is found |
| Queries.SaveThenFindBySetIntersection | lib/flapjack/data/redis_record.rb:116-138 | a saved record is found by any values its set attribute holds |
| Filters.NewFilter | lib/flapjack/data/redis_record.rb:606-610 | a new filter has its initial key and class and no steps |
| Filters.AddStep | lib/flapjack/data/redis_record.rb:612-615 | `filter(opts)` appends one step and keeps the earlier ones |
| Filters.ClassFilter | lib/flapjack/data/redis_record.rb:99-102 | the class-level filter has no initial key, and resolves to the keys of its one step |
| Filters.StepKeysMembers | lib/flapjack/data/redis_record.rb:636-642 | a step contributes exactly the keys of its constraints on indexed attributes |
| Filters.AllStepKeysMembers | lib/flapjack/data/redis_record.rb:633-644 | the steps contribute exactly the keys of all their constraints on indexed attributes |
| Filters.InterSatisfies | lib/flapjack/data/redis_record.rb:625-644 | an id is in the intersection of the resolved keys exactly when it satisfies the initial key and every constraint on an indexed attribute |
| Filters.FilterAll | lib/flapjack/data/redis_record.rb:625-629 | `all` fails with no keys at all; otherwise it holds exactly the ids satisfying every kept constraint, each with the record loaded by that id |
| Filters.FilterCount | lib/flapjack/data/redis_record.rb:618-623 | `count` replies 1 when some id matches and 0 otherwise, and leaves the store as it was |
| Filters.CountAsWritten | lib/flapjack/data/redis_record.rb:619 | `count` runs only if `class_key` can be called on an explicit receiver |
| Filters.CountIsNotCardinality | lib/flapjack/data/redis_record.rb:618-623 | with two matching records, `count` replies 1 while the cardinality is 2 |
| Filters.FilterCardinality | lib/flapjack/data/redis_record.rb:618-623 | the intended count: the number of matching ids, leaving the store as it was |
| Filters.UnindexedStepDropped | lib/flapjack/data/redis_record.rb:636-641 | a step constraining only unindexed attributes changes nothing the filter resolves to |
| Associations.HasManySeparate | lib/flapjack/data/redis_record.rb:541-547 | the set `<owner record key>:<singular>_ids` of an owner of another class lies outside the linked class's keys |
| Associations.Add | lib/flapjack/data/redis_record.rb:559-565 | `add` raises exactly when some record is of another class. Only ids of valid records are added. Every valid record's id is added when none raises. The records handed back are those processed before the raise, in order: each valid one saved under its id with no pending changes, each invalid one as it was |
| Associations.AddSavedAgain | lib/flapjack/data/redis_record.rb:554-565 | adding a valid record links the id its save gave it, and adding the record it hands back a second time leaves `count` unchanged |
| Associations.AddOne | lib/flapjack/data/redis_record.rb:561-563 | a record that fails validation is skipped and changes nothing; a valid one adds the id its save gave it |
| Associations.AddEffect | lib/flapjack/data/redis_record.rb:559-565 | after `add` the set is the old ids plus the added ones, and nothing outside the linked class's keys changes |
| Associations.Delete | lib/flapjack/data/redis_record.rb:568-573 | `delete` raises exactly when some record is of another class. The ids of the records before the raise are removed, and nothing else changes |
| Associations.All | lib/flapjack/data/redis_record.rb:580-584 | `all` holds exactly the linked ids, each with the record of the linked class loaded by that id |
| Associations.AssocFilter | lib/flapjack/data/redis_record.rb:549-552 | the association's filter starts from its id-set |
| Associations.FilterWithinAssociation | lib/flapjack/data/redis_record.rb:549-552 | an association's filter always has a key, and finds only linked records |
| Associations.ReAddKeepsCount | lib/flapjack/data/redis_record.rb:559-565 | adding an already linked record leaves `count` unchanged |
| Associations.AddThenDelete | lib/flapjack/data/redis_record.rb:559-573 | an added valid record is linked under its saved id, and deleting it unlinks exactly that id |
| Keys.IndexKeyInjective | lib/flapjack/data/redis_record.rb:501 | two index keys are equal only for the same attribute and value |
| Keys.IndexKeyNotRecordKey | lib/flapjack/data/redis_record.rb:501 | no index key is a record's attribute key |
| Keys.RecordKeysNotIdsKey | lib/flapjack/data/redis_record.rb:269-270 | no record's key is the id-set |
| Keys.KeysInNamespace | lib/flapjack/data/redis_record.rb:269-270 | every key of a class starts with `<class_key>:` |
| Keys.IdFromComplexKey | lib/flapjack/data/redis_record.rb:120 | a pattern match yields an id with no `:` that rebuilds the key |
| Keys.ComplexKeyRoundTrip | lib/flapjack/data/redis_record.rb:120 | the pattern recovers the id from a complex attribute's key |
| Keys.TempKeyNotMatched | lib/flapjack/data/redis_record.rb:124-127 | the scratch set never matches the scanned pattern |
| Ruby.IntTextRoundTrip | lib/flapjack/data/redis_record.rb:287-288 | `to_i` of an integer's `to_s` is the integer |
| Ruby.ToISeparated | lib/flapjack/data/redis_record.rb:287-288 | `to_i` reads a single `_` between digits as a separator, so "1_000" reads as 1000 |
| Ruby.ToIOfNegated | lib/flapjack/data/redis_record.rb:287-288 | `to_i` of `-` followed by digits is minus their value |
| Ruby.UnicodeSpacesBlank | lib/flapjack/data/redis_record.rb:355 | an illustration of `Ruby.IsSpace`: `blank?` counts non-ASCII white space such as U+00A0 and U+3000 as blank, and a letter as not blank |
| Pushover.MessageStyle | lib/flapjack/gateways/pushover.rb:67-82 | priority is -1 or 1, and 1 exactly for a warning or a critical. Yellow means warning and red means critical. Blue means an acknowledgement of a non-problem; green means any other non-problem |
| Pushover.RecoveryFirst | lib/flapjack/gateways/pushover.rb:67-69 | an ok recovery is green with priority -1 |
| Pushover.ProblemBeatsAcknowledgement | lib/flapjack/gateways/pushover.rb:70-78 | an acknowledgement of a warning or critical keeps the problem's colour and priority |
| Pushover.Channel | lib/flapjack/gateways/pushover.rb:62-63 | the channel is `#` and the address, or `#general` for an empty address |
| Pushover.MessageType | lib/flapjack/gateways/pushover.rb:65 | the message type is "-1" exactly for a rollup, and "1" otherwise |
| Pushover.ConfigErrors | lib/flapjack/gateways/pushover.rb:90-100 | each of endpoint, app_key and usr_key adds its own message exactly when it is nil or empty. There are no other messages, and they come in that order |
| Pushover.Deliver | lib/flapjack/gateways/pushover.rb:102-131 | nothing is posted when there are errors. Otherwise the payload carries the keys, the entity and the priority, and the count grows by one exactly for a status from 200 to 206 |
| Pushover.SentCountsSuccesses | lib/flapjack/gateways/pushover.rb:128-131 | over a run of deliveries the sent count grows by exactly the number of successful replies, and not at all without a complete configuration |

## Left out

- Redis itself is left out: connections, the wire protocol, pipelining, and how MULTI/EXEC is really atomic. Concurrent writers are left out too. Each save and destroy is one transition of the store.
- `SecureRandom` ids and scratch names are parameters. The scratch key is required not to exist; nothing else is assumed of it.
- `Oj.dump` is an opaque parameter. `refresh` passes a stored json_string through `Oj.dump` again instead of parsing it (line 292). The model does the same, so no json round trip holds; `SaveProofs.FieldRoundTrip` states the double serialization.
- `update_attributes` (lines 317-325) compares against `value`, a name it never defines. It is not modelled.
- `HasSortedSetAssociation` (lines 508-535): every method is an empty stub.
- Blocks are left out: `HasManyAssociation#collect` and `#each` call a block on each loaded record, and the model gives the loaded records as `Associations.All`. `<<` is `add` with one record.
- ActiveModel's generated methods and dirty tracking are left out. They are replaced by an explicit schema and an explicit map of values before their first change. `is_a?(@associated_class)` is compared by class key, so subclasses are not modelled. `name.singularize` is a parameter of `Associations.HasMany`, and `constantize` is not modelled.
- The order of SMEMBERS, SINTER and KEYS replies is left out. The lookups return maps keyed by id or key, not arrays. A Set or Hash saved into a `:list` attribute is pushed in an order the model leaves unspecified.
- The model assumes that redis-objects' bulk write of the simple attributes sets the fields given a value and deletes the fields given nil. The case of no fields at all sends nothing.
- A nil key sent to SINTER or SINTERSTORE is modelled as the empty key name, which reads as whatever the key `""` holds: an empty set unless something stored a set there.
- Regular-expression metacharacters in a class key or attribute name are not modelled. The KEYS pattern and the match at line 120 are taken literally.
- The Pushover message text (`Time#strftime`, the sentence forms) and the HTTP request are left out. A missing response is modelled as the request failing, which is what comparing a nil status does. The colour, channel and message type are computed but never posted; they are modelled as computed.
- Queries.FindById: the id must have a text form, that is, not be an array, a set or a hash. The `to_s` of those collections (their `inspect` text, with an object address for a Set) is not modelled.
- Queries.AddId: the id must have a text form, as for `find_by_id`.
- Queries.DeleteId: the id must have a text form, as for `find_by_id`.
- Records.Assign: an `id` written must have a text form, since the writer stores `value.to_s`.
- Redis replies WRONGTYPE to a command aimed at a key of another kind, and redis-rb raises it. The model refuses such a write and leaves the store as it was: `Index.IndexAddId`, `Queries.AddId` and `Queries.DeleteId` then reply as if nothing happened, and SMEMBERS, SCARD, SINTER, SINTERSTORE, LRANGE and HGETALL read such a key as empty. So, for instance, `Filters.FilterAll` over an initial key holding a hash finds no record, where the source raises. The layer itself never makes such a key when ids and names contain no `:`; it needs a `:` in an id or attribute name, or another writer.
- Validation.AcceptsByType: the only Enumerables modelled are arrays, sets and hashes, and the only strings, integers, sets and hashes are direct instances. A Range, a Struct, an Enumerator, or an instance of a subclass of String, is an `Other` value. The model rejects it where `is_a?` (lines 30, 33 and 656) accepts it, and so does not save a `:list` attribute holding a Range.
- Associations.Add: one Ruby object passed twice is modelled as two objects. In Ruby the second save sees the id the first gave the object; the model hands back the saved records as `saved`, and `Associations.AddSavedAgain` states what adding such a record again does.
- Associations.AddThenDelete: stated only for an association whose set lies outside the linked class's keys; `Associations.HasManySeparate` shows that this holds whenever the owner is of another class.
- SaveProofs.ComplexRoundTrip: collection elements are held as strings, so the round trip is stated for collections of strings. A Ruby `Set[1]` reloads as `Set["1"]`, which the model does not distinguish.
- SaveProofs.SaveReloadsComplex: the same holds, since it relies on `SaveProofs.ComplexRoundTrip`.
- Records.Destroy: that each index entry keeps every other id is stated only for an id without `:`. An id with `:` can make the record's own attribute-hash key the same name as an index entry, which the DEL then removes.
- Records.Destroy: with no id, `destroy` has already sent MULTI and the SREMs of the indexes when it raises, so the connection is left inside MULTI. The model has no connection state; it returns the failure with the store unchanged, since EXEC is never sent.
- `downcase` is modelled on ASCII letters only. This decides `value.downcase == 'true'` the same way as Ruby's full case mapping, since the only non-ASCII characters Ruby downcases into ASCII are U+212A KELVIN SIGN, to `k`, and U+0130, to `i` followed by U+0307. Neither can occur in a text that downcases to `true`.
- Associations.AddEffect: stated only for an association whose set lies outside the linked class's keys, which is the case whenever the owner is of another class.
- Associations.ReAddKeepsCount: stated only for an association whose set lies outside the linked class's keys, as for `Associations.AddEffect`.
- Filters.FilterAll: returns the loaded records keyed by id rather than as an array.
- Queries.DeleteAll: stated only for stores whose attribute hashes hold no `id` field. For such a field `refresh` replaces the loaded record's `id` with the field's text (`id` is declared a string, line 65, so lines 283-286 copy the field), and `delete_all` would then remove that text from the id-set instead of the id it loaded. `save` never writes `id` into the hash (line 348), so every store the layer writes meets this.
- Proofs about saves and key disjointness require ids and attribute names free of `:`. The source does not escape them either (TODO at line 17).

## Findings

| source | as written | input that shows it | evidently intended | confidence | as-written member | corrected member |
|---|---|---|---|---|---|---|
| lib/flapjack/data/redis_record.rb:619 | `Filter#count` names its scratch set with `@associated_class.class_key`. `class_key` is a private class method (line 181), so calling it on an explicit receiver raises NoMethodError | any filter, e.g. the class filter of any record class | read the class key through `send(:class_key)`, as `record_key` does at line 270 | high, not executed | Filters.CountAsWritten | Filters.FilterCount |
| lib/flapjack/data/redis_record.rb:622 | `Filter#count` returns the reply of DEL, which is 1 when the intersection was non-empty and 0 otherwise | two records of a class with the same indexed value: count is 1, not 2 | return the SCARD reply of line 621 | medium, not executed | Filters.CountIsNotCardinality | Filters.FilterCardinality |

=== FILE: associations.dfy ===
/** `HasManyAssociation`: a record's to-many link to records of another
    class, kept as the id-set `<owner record key>:<singular name>_ids`.
    Adding saves each record and then adds its id; deleting only removes
    the id. The associated records themselves are never deleted here. */
module Associations {
  import opened Ruby
  import opened RedisStore
  import opened Keys
  import opened Schema
  import opened Validation
  import opened Index
  import opened Records
  import opened SaveProofs
  import opened Filters

  /** The association's id-set and the class of the records it links to. */
  datatype Association = Association(key: string, target: EntityType)

  /** `has_many name` on the record `<ownerCls>:<ownerId>`; `singular` is
      the singularized association name. */
  function HasMany(ownerCls: string, ownerId: string, singular: string, target: EntityType): (a: Association)
    ensures a.target == target
    ensures a.key == RecordKey(ownerCls, ownerId) + ":" + singular + "_ids"
  {
    Association(AssocKey(RecordKey(ownerCls, ownerId), singular), target)
  }

  /** An argument to `add` or `delete`: a record and the class key of its
      class. */
  datatype Item = Item(cls: string, record: Record)

  /** The id `delete` sends: the record's id, or the empty string when it
      has none. */
  function IdText(r: Record): string {
    match IdOf(r)
    case Some(id) => id
    case None => ""
  }

  /** The class check `add` and `delete` make on every argument. */
  predicate WrongClass(a: Association, items: seq<Item>) {
    exists i :: 0 <= i < |items| && items[i].cls != a.target.classKey
  }

  /** The elements of a sequence, as a set. */
  function Elems(xs: seq<string>): set<string> {
    set x | x in xs
  }

  lemma ElemsOne(x: string)
    ensures Elems([x]) == {x} && Elems([]) == {}
  {
  }

  lemma ElemsConcat(xs: seq<string>, ys: seq<string>)
    ensures Elems(xs + ys) == Elems(xs) + Elems(ys)
  {
  }

  /** The store after `add`, the ids it added in order, and the records it
      reached as they stand afterwards: one per record before the class
      check first fails. */
  datatype AddOutcome = AddOutcome(store: Store, added: seq<string>, saved: seq<Record>, raised: bool)

  /** What `add` leaves of a record it reached: a valid record is saved,
      so it has its saved id and no pending changes and keeps its other
      attributes; an invalid one is left as it was. */
  ghost predicate AfterAdd(t: EntityType, r: Record, newId: string, r2: Record) {
    && (Valid(t.attrTypes, r.attrs) ==>
        IdOf(r2) == Some(SaveId(r, newId)) && r2.changedFrom == map[]
        && forall b :: b != "id" ==> Get(r2, b) == Get(r, b))
    && (!Valid(t.attrTypes, r.attrs) ==> r2 == r)
  }

  /** The records `add` reached, in order, up to the first of another class. */
  ghost predicate SavedInOrder(a: Association, items: seq<Item>, newIds: seq<string>, saved: seq<Record>, raised: bool)
    requires |newIds| == |items|
  {
    && |saved| <= |items|
    && (!raised ==> |saved| == |items|)
    && (raised ==> |saved| < |items| && items[|saved|].cls != a.target.classKey)
    && forall i :: 0 <= i < |saved| ==>
         items[i].cls == a.target.classKey && AfterAdd(a.target, items[i].record, newIds[i], saved[i])
  }

  /** `add(*records)`: in order, raises 'Invalid class' at the first record
      of another class, keeping what the earlier ones did; skips a record
      whose save fails validation; otherwise saves it and adds its id.
      `newIds[i]` stands for the random id drawn if the i-th record has
      none. */
  ghost function Add(a: Association, st: Store, items: seq<Item>, newIds: seq<string>, dump: Value -> string): (res: AddOutcome)
    requires WellFormed(a.target)
    requires |newIds| == |items| && forall i :: 0 <= i < |newIds| ==> IsHexId(newIds[i])
    ensures res.raised <==> WrongClass(a, items)
    ensures forall x :: x in res.added ==>
      exists i :: 0 <= i < |items| && Valid(a.target.attrTypes, items[i].record.attrs) && x == SaveId(items[i].record, newIds[i])
    ensures !res.raised ==> forall i :: 0 <= i < |items| && Valid(a.target.attrTypes, items[i].record.attrs) ==>
      SaveId(items[i].record, newIds[i]) in res.added
    ensures SavedInOrder(a, items, newIds, res.saved, res.raised)
    decreases |items|
  {
    if items == [] then AddOutcome(st, [], [], false)
    else if items[0].cls != a.target.classKey then AddOutcome(st, [], [], true)
    else
      var step := AddOne(a, st, items[0].record, newIds[0], dump);
      var rest := Add(a, step.0, items[1..], newIds[1..], dump);
      WrongClassTail(a, items);
      AddedCons(a, items, newIds, step.1, rest.added, rest.raised);
      SavedCons(a, items, newIds, step.2, rest.saved, rest.raised);
      AddOutcome(rest.store, step.1 + rest.added, [step.2] + rest.saved, rest.raised)
  }

  /** The first record's state after `add`, followed by the rest's. */
  lemma SavedCons(a: Association, items: seq<Item>, newIds: seq<string>, first: Record, rest: seq<Record>, raised: bool)
    requires items != [] && |newIds| == |items| && items[0].cls == a.target.classKey
    requires AfterAdd(a.target, items[0].record, newIds[0], first)
    requires SavedInOrder(a, items[1..], newIds[1..], rest, raised)
    ensures SavedInOrder(a, items, newIds, [first] + rest, raised)
  {
    assert forall i :: 0 <= i < |items| - 1 ==> items[1..][i] == items[i + 1] && newIds[1..][i] == newIds[i + 1];
    var saved := [first] + rest;
    forall i | 0 <= i < |saved|
      ensures items[i].cls == a.target.classKey && AfterAdd(a.target, items[i].record, newIds[i], saved[i])
    {
      if i > 0 {
        assert saved[i] == rest[i - 1];
      }
    }
  }

  /** Every id added comes from a valid record, as its saved id. */
  predicate AddedFromValid(a: Association, items: seq<Item>, newIds: seq<string>, added: seq<string>)
    requires |newIds| == |items|
  {
    forall x :: x in added ==>
      exists i :: 0 <= i < |items| && Valid(a.target.attrTypes, items[i].record.attrs) && x == SaveId(items[i].record, newIds[i])
  }

  /** Every valid record's saved id is added. */
  predicate AllValidAdded(a: Association, items: seq<Item>, newIds: seq<string>, added: seq<string>)
    requires |newIds| == |items|
  {
    forall i :: 0 <= i < |items| && Valid(a.target.attrTypes, items[i].record.attrs) ==>
      SaveId(items[i].record, newIds[i]) in added
  }

  /** What the first record adds, followed by what the rest add, accounts
      for the whole run. */
  lemma AddedCons(a: Association, items: seq<Item>, newIds: seq<string>, first: seq<string>, rest: seq<string>, raised: bool)
    requires items != [] && |newIds| == |items|
    requires Valid(a.target.attrTypes, items[0].record.attrs) ==> first == [SaveId(items[0].record, newIds[0])]
    requires !Valid(a.target.attrTypes, items[0].record.attrs) ==> first == []
    requires AddedFromValid(a, items[1..], newIds[1..], rest)
    requires !raised ==> AllValidAdded(a, items[1..], newIds[1..], rest)
    ensures AddedFromValid(a, items, newIds, first + rest)
    ensures !raised ==> AllValidAdded(a, items, newIds, first + rest)
  {
    assert forall i :: 0 <= i < |items| - 1 ==> items[1..][i] == items[i + 1] && newIds[1..][i] == newIds[i + 1];
    forall x | x in first + rest
      ensures exists i :: 0 <= i < |items| && Valid(a.target.attrTypes, items[i].record.attrs) && x == SaveId(items[i].record, newIds[i])
    {
      if x !in first {
        var i :| 0 <= i < |items| - 1 && Valid(a.target.attrTypes, items[1..][i].record.attrs) && x == SaveId(items[1..][i].record, newIds[1..][i]);
        assert items[i + 1] == items[1..][i];
      }
    }
  }

  /** Past a first record of the right class, the class check fails exactly
      when it fails on the rest. */
  lemma WrongClassTail(a: Association, items: seq<Item>)
    requires items != [] && items[0].cls == a.target.classKey
    ensures WrongClass(a, items) <==> WrongClass(a, items[1..])
  {
    if WrongClass(a, items) {
      var i :| 0 <= i < |items| && items[i].cls != a.target.classKey;
      assert items[1..][i - 1] == items[i];
    }
  }

  /** One record of `add`, past the class check: the store after it, the
      id added, if any, and the record as the save leaves it. */
  ghost function AddOne(a: Association, st: Store, r: Record, newId: string, dump: Value -> string): (res: (Store, seq<string>, Record))
    requires WellFormed(a.target) && IsHexId(newId)
    ensures Valid(a.target.attrTypes, r.attrs) ==> res.1 == [SaveId(r, newId)]
    ensures !Valid(a.target.attrTypes, r.attrs) ==> res == (st, [], r)
    ensures AfterAdd(a.target, r, newId, res.2)
  {
    match Save(a.target, st, r, newId, dump)
    case Invalid(_) => (st, [], r)
    case Saved(s, r2) => (SAdd(s, a.key, {SaveId(r, newId)}), [SaveId(r, newId)], r2)
  }

  /** The association's id-set lies outside the linked class's namespace,
      as it does whenever the owner's class is another class. */
  predicate Separate(a: Association) {
    !InNamespace(a.target.classKey, a.key)
  }

  /** An association from a record of one class to records of another
      lies outside the linked class's namespace. */
  lemma HasManySeparate(ownerCls: string, ownerId: string, singular: string, target: EntityType)
    requires ColonFree(ownerCls) && ColonFree(target.classKey) && ownerCls != target.classKey
    ensures Separate(HasMany(ownerCls, ownerId, singular, target))
  {
    var k := HasMany(ownerCls, ownerId, singular, target).key;
    var c, o := target.classKey, ownerCls;
    assert k[..|o| + 1] == o + ":";
    if |k| > |c| {
      var p := k[..|c| + 1];
      if |c| < |o| {
        assert p[|c|] == o[|c|];
        DifferAt(p, c + ":", |c|);
      } else if |c| > |o| {
        assert p[|o|] == ':';
        DifferAt(p, c + ":", |o|);
      } else {
        var i :| 0 <= i < |c| && c[i] != o[i];
        assert p[i] == o[i];
        DifferAt(p, c + ":", i);
      }
    }
  }

  /** Every record that has an id has one free of ':'. */
  predicate IdsColonFree(items: seq<Item>) {
    forall i :: 0 <= i < |items| && IdOf(items[i].record).Some? ==> ColonFree(IdOf(items[i].record).value)
  }

  /** One record of `add` adds its saved id to the association. */
  lemma AddOneMembers(a: Association, st: Store, r: Record, newId: string, dump: Value -> string)
    requires WellFormed(a.target) && IsHexId(newId) && Separate(a)
    requires IdOf(r).Some? ==> ColonFree(IdOf(r).value)
    requires !HoldsOtherThanSet(st, a.key)
    ensures var res := AddOne(a, st, r, newId, dump);
      && Members(res.0, a.key) == Members(st, a.key) + Elems(res.1)
      && !HoldsOtherThanSet(res.0, a.key)
  {
    ElemsOne(SaveId(r, newId));
    if Valid(a.target.attrTypes, r.attrs) {
      assert Saveable(a.target, r, newId);
      SaveStaysInNamespace(a.target, st, r, newId, dump, a.key);
    }
  }

  /** One record of `add` touches nothing outside the linked class's
      namespace but the association's id-set. */
  lemma AddOneFrame(a: Association, st: Store, r: Record, newId: string, dump: Value -> string, k: string)
    requires WellFormed(a.target) && IsHexId(newId)
    requires IdOf(r).Some? ==> ColonFree(IdOf(r).value)
    requires !InNamespace(a.target.classKey, k) && k != a.key
    ensures Agree(st, AddOne(a, st, r, newId, dump).0, k)
  {
    if Valid(a.target.attrTypes, r.attrs) {
      assert Saveable(a.target, r, newId);
      SaveStaysInNamespace(a.target, st, r, newId, dump, k);
      Untouched(Save(a.target, st, r, newId, dump).store, AddOne(a, st, r, newId, dump).0, a.key, k);
    }
  }

  /** After `add`, the association holds its old ids and the ids added, and
      nothing else outside the linked class's namespace has changed. */
  lemma AddEffect(a: Association, st: Store, items: seq<Item>, newIds: seq<string>, dump: Value -> string)
    requires WellFormed(a.target) && Separate(a) && IdsColonFree(items)
    requires |newIds| == |items| && forall i :: 0 <= i < |newIds| ==> IsHexId(newIds[i])
    requires !HoldsOtherThanSet(st, a.key)
    ensures var res := Add(a, st, items, newIds, dump);
      && Members(res.store, a.key) == Members(st, a.key) + Elems(res.added)
      && !HoldsOtherThanSet(res.store, a.key)
      && forall k :: !InNamespace(a.target.classKey, k) && k != a.key ==> Agree(st, res.store, k)
  {
    AddEffectMembers(a, st, items, newIds, dump);
    forall k | !InNamespace(a.target.classKey, k) && k != a.key
      ensures Agree(st, Add(a, st, items, newIds, dump).store, k)
    {
      AddEffectFrame(a, st, items, newIds, dump, k);
    }
  }

  /** One step of `add` past a record of the right class. */
  lemma AddUnfold(a: Association, st: Store, items: seq<Item>, newIds: seq<string>, dump: Value -> string)
    requires WellFormed(a.target)
    requires |newIds| == |items| && forall i :: 0 <= i < |newIds| ==> IsHexId(newIds[i])
    requires items != [] && items[0].cls == a.target.classKey
    ensures var step := AddOne(a, st, items[0].record, newIds[0], dump);
      var rest := Add(a, step.0, items[1..], newIds[1..], dump);
      && Add(a, st, items, newIds, dump).store == rest.store
      && Add(a, st, items, newIds, dump).added == step.1 + rest.added
  {
  }

  lemma IdsColonFreeTail(items: seq<Item>)
    requires items != [] && IdsColonFree(items)
    ensures IdsColonFree(items[1..])
  {
    assert forall i :: 0 <= i < |items| - 1 ==> items[1..][i] == items[i + 1];
  }

  lemma {:induction false} AddEffectMembers(a: Association, st: Store, items: seq<Item>, newIds: seq<string>, dump: Value -> string)
    requires WellFormed(a.target) && Separate(a) && IdsColonFree(items)
    requires |newIds| == |items| && forall i :: 0 <= i < |newIds| ==> IsHexId(newIds[i])
    requires !HoldsOtherThanSet(st, a.key)
    ensures var res := Add(a, st, items, newIds, dump);
      && Members(res.store, a.key) == Members(st, a.key) + Elems(res.added)
      && !HoldsOtherThanSet(res.store, a.key)
    decreases |items|
  {
    if items != [] && items[0].cls == a.target.classKey {
      var step := AddOne(a, st, items[0].record, newIds[0], dump);
      AddOneMembers(a, st, items[0].record, newIds[0], dump);
      IdsColonFreeTail(items);
      AddEffectMembers(a, step.0, items[1..], newIds[1..], dump);
      AddUnfold(a, st, items, newIds, dump);
      ElemsConcat(step.1, Add(a, step.0, items[1..], newIds[1..], dump).added);
    }
  }

  lemma {:induction false} AddEffectFrame(a: Association, st: Store, items: seq<Item>, newIds: seq<string>, dump: Value -> string, k: string)
    requires WellFormed(a.target) && IdsColonFree(items)
    requires |newIds| == |items| && forall i :: 0 <= i < |newIds| ==> IsHexId(newIds[i])
    requires !InNamespace(a.target.classKey, k) && k != a.key
    ensures Agree(st, Add(a, st, items, newIds, dump).store, k)
    decreases |items|
  {
    if items != [] && items[0].cls == a.target.classKey {
      var step := AddOne(a, st, items[0].record, newIds[0], dump);
      AddOneFrame(a, st, items[0].record, newIds[0], dump, k);
      IdsColonFreeTail(items);
      AddEffectFrame(a, step.0, items[1..], newIds[1..], dump, k);
      AddUnfold(a, st, items, newIds, dump);
    }
  }

  /** The ids `delete` sends for the given records. */
  function IdTexts(items: seq<Item>): set<string> {
    set i | 0 <= i < |items| :: IdText(items[i].record)
  }

  lemma IdTextsOne(it: Item)
    ensures IdTexts([it]) == {IdText(it.record)}
  {
    assert [it][0] == it;
  }

  datatype DeleteOutcome = DeleteOutcome(store: Store, raised: bool)

  /** `delete(*records)`: in order, raises 'Invalid class' at the first
      record of another class, keeping what the earlier ones did; otherwise
      removes the record's id from the association. */
  function Delete(a: Association, st: Store, items: seq<Item>): (res: DeleteOutcome)
    ensures res.raised <==> WrongClass(a, items)
    ensures res.store - {a.key} == st - {a.key}
    ensures Members(res.store, a.key) <= Members(st, a.key)
    ensures forall i :: 0 <= i < |items| && !WrongClass(a, items[..i + 1]) ==> IdText(items[i].record) !in Members(res.store, a.key)
    ensures !res.raised ==> Members(res.store, a.key) == Members(st, a.key) - IdTexts(items)
    decreases |items|
  {
    if items == [] then DeleteOutcome(st, false)
    else if items[0].cls != a.target.classKey then
      assert WrongClass(a, items[..1]);
      DeleteOutcome(st, true)
    else
      var s1 := SRem(st, a.key, {IdText(items[0].record)});
      var rest := Delete(a, s1, items[1..]);
      assert forall i :: 0 <= i < |items| - 1 ==> items[1..][i] == items[i + 1];
      WrongClassTail(a, items);
      assert forall i :: 1 <= i < |items| ==> items[1..][..i] == items[1..i + 1];
      assert forall i :: 1 <= i < |items| && !WrongClass(a, items[..i + 1]) ==> !WrongClass(a, items[1..][..i]) by {
        forall i | 1 <= i < |items| && WrongClass(a, items[1..][..i]) ensures WrongClass(a, items[..i + 1]) {
          var j :| 0 <= j < i && items[1..][..i][j].cls != a.target.classKey;
          assert items[..i + 1][j + 1] == items[1..][..i][j];
        }
      }
      assert IdTexts(items) == {IdText(items[0].record)} + IdTexts(items[1..]) by {
        forall x | x in IdTexts(items) ensures x in {IdText(items[0].record)} + IdTexts(items[1..]) {
          var i :| 0 <= i < |items| && x == IdText(items[i].record);
          if i > 0 {
            assert x == IdText(items[1..][i - 1].record);
          }
        }
      }
      rest
  }

  /** `count`: the number of linked ids. */
  function Count(st: Store, a: Association): (n: nat)
    ensures n == |Members(st, a.key)|
  {
    Card(st, a.key)
  }

  /** `ids`: the linked ids. */
  function Ids(st: Store, a: Association): set<string> {
    Members(st, a.key)
  }

  /** `all`: each linked id loaded as a record of the linked class. */
  function All(st: Store, a: Association, dump: Value -> string): (r: map<string, Record>)
    ensures r.Keys == Ids(st, a)
    ensures forall id :: id in r ==> r[id].changedFrom == map[]
    ensures forall id :: id in r && "id" !in HGetAll(st, AttrsKey(a.target.classKey, id)) && "id" !in ComplexAttributes(a.target) ==>
      IdOf(r[id]) == Some(id)
    ensures forall id :: id in r ==> r[id] == Load(a.target, st, id, dump)
  {
    map id | id in Ids(st, a) :: Load(a.target, st, id, dump)
  }

  /** `filter(opts)`: a filter over the linked class that starts from the
      association's id-set. */
  function AssocFilter(a: Association, opts: Filters.Step): (f: Filter)
    ensures f.initialKey == Some(a.key) && f.target == a.target && f.steps == [opts]
  {
    AddStep(NewFilter(Some(a.key), a.target), opts)
  }

  /** A filter on an association always has a key to intersect, and finds
      only linked records, whatever its constraints. */
  lemma FilterWithinAssociation(st: Store, a: Association, opts: Filters.Step, dump: Value -> string)
    ensures FilterAll(st, AssocFilter(a, opts), dump).Some?
    ensures FilterAll(st, AssocFilter(a, opts), dump).value.Keys <= Ids(st, a)
  {
    var f := AssocFilter(a, opts);
    assert ResolveSteps(f)[0] == a.key;
  }

  /** Adding a record that is already linked leaves the count as it was. */
  lemma ReAddKeepsCount(a: Association, st: Store, r: Record, newId: string, dump: Value -> string)
    requires WellFormed(a.target) && Separate(a) && IsHexId(newId)
    requires IdOf(r).Some? && ColonFree(IdOf(r).value) && IdOf(r).value in Ids(st, a)
    requires !HoldsOtherThanSet(st, a.key)
    ensures Count(Add(a, st, [Item(a.target.classKey, r)], [newId], dump).store, a) == Count(st, a)
  {
    var items := [Item(a.target.classKey, r)];
    assert IdsColonFree(items);
    AddEffect(a, st, items, [newId], dump);
    ReAddAddsOnlyId(a, st, r, newId, dump);
    var res := Add(a, st, items, [newId], dump);
    AbsorbedIds(st, res.store, a.key, res.added, IdOf(r).value);
  }

  /** `<< r` twice, the second time with the record the first `add` saved:
      the first links the saved id, and the second links nothing new. */
  lemma AddSavedAgain(a: Association, st: Store, r: Record, newId: string, newId2: string, dump: Value -> string)
    requires WellFormed(a.target) && Separate(a) && IsHexId(newId) && IsHexId(newId2)
    requires Valid(a.target.attrTypes, r.attrs) && (IdOf(r).Some? ==> ColonFree(IdOf(r).value))
    requires !HoldsOtherThanSet(st, a.key)
    ensures var first := Add(a, st, [Item(a.target.classKey, r)], [newId], dump);
      && |first.saved| == 1 && IdOf(first.saved[0]) == Some(SaveId(r, newId))
      && SaveId(r, newId) in Ids(first.store, a)
      && Count(Add(a, first.store, [Item(a.target.classKey, first.saved[0])], [newId2], dump).store, a) == Count(first.store, a)
  {
    var first := Add(a, st, [Item(a.target.classKey, r)], [newId], dump);
    AddValidOne(a, st, r, newId, dump);
    SaveIdColonFree(r, newId);
    ReAddKeepsCount(a, first.store, first.saved[0], newId2, dump);
  }

  /** Adding one valid record links its saved id and hands back the record
      under that id. */
  lemma AddValidOne(a: Association, st: Store, r: Record, newId: string, dump: Value -> string)
    requires WellFormed(a.target) && Separate(a) && IsHexId(newId)
    requires Valid(a.target.attrTypes, r.attrs) && (IdOf(r).Some? ==> ColonFree(IdOf(r).value))
    requires !HoldsOtherThanSet(st, a.key)
    ensures var first := Add(a, st, [Item(a.target.classKey, r)], [newId], dump);
      && |first.saved| == 1 && IdOf(first.saved[0]) == Some(SaveId(r, newId))
      && SaveId(r, newId) in Ids(first.store, a)
      && !HoldsOtherThanSet(first.store, a.key)
  {
    var items := [Item(a.target.classKey, r)];
    var first := Add(a, st, items, [newId], dump);
    assert !WrongClass(a, items);
    assert IdsColonFree(items);
    AddEffect(a, st, items, [newId], dump);
    assert SaveId(r, newId) in first.added by {
      assert Valid(a.target.attrTypes, items[0].record.attrs) && SaveId(items[0].record, [newId][0]) == SaveId(r, newId);
    }
    assert AfterAdd(a.target, items[0].record, [newId][0], first.saved[0]);
  }

  /** A saved id is free of ':' when the record's own id was. */
  lemma SaveIdColonFree(r: Record, newId: string)
    requires IsHexId(newId) && (IdOf(r).Some? ==> ColonFree(IdOf(r).value))
    ensures ColonFree(SaveId(r, newId))
  {
    if IdOf(r).None? {
      assert forall i :: 0 <= i < |newId| ==> newId[i] != ':';
    }
  }

  /** Adding a record that has an id adds no other id. */
  lemma ReAddAddsOnlyId(a: Association, st: Store, r: Record, newId: string, dump: Value -> string)
    requires WellFormed(a.target) && IsHexId(newId) && IdOf(r).Some?
    ensures forall x :: x in Add(a, st, [Item(a.target.classKey, r)], [newId], dump).added ==> x == IdOf(r).value
  {
    var items := [Item(a.target.classKey, r)];
    assert SaveId(items[0].record, [newId][0]) == IdOf(r).value;
  }

  lemma AbsorbedIds(st: Store, s2: Store, k: string, added: seq<string>, id: string)
    requires Members(s2, k) == Members(st, k) + Elems(added)
    requires id in Members(st, k) && forall x :: x in added ==> x == id
    ensures Card(s2, k) == Card(st, k)
  {
    assert Members(s2, k) == Members(st, k);
  }

  /** A valid record added to the association is linked under the id its
      save gave it, and deleting the saved record unlinks exactly that id. */
  lemma AddThenDelete(a: Association, st: Store, r: Record, newId: string, dump: Value -> string)
    requires WellFormed(a.target) && Separate(a) && IsHexId(newId) && Valid(a.target.attrTypes, r.attrs)
    requires IdOf(r).Some? ==> ColonFree(IdOf(r).value)
    requires !HoldsOtherThanSet(st, a.key)
    ensures var added := Add(a, st, [Item(a.target.classKey, r)], [newId], dump).store;
      var saved := Save(a.target, st, r, newId, dump).record;
      var after := Delete(a, added, [Item(a.target.classKey, saved)]).store;
      && SaveId(r, newId) in Ids(added, a)
      && Ids(after, a) == Ids(added, a) - {SaveId(r, newId)}
  {
    var items := [Item(a.target.classKey, r)];
    assert IdsColonFree(items);
    AddEffect(a, st, items, [newId], dump);
    var res := Add(a, st, items, [newId], dump);
    assert SaveId(r, newId) in res.added by {
      assert Valid(a.target.attrTypes, items[0].record.attrs) && SaveId(items[0].record, [newId][0]) == SaveId(r, newId);
    }
    var saved := Save(a.target, st, r, newId, dump).record;
    assert IdText(saved) == SaveId(r, newId);
    IdTextsOne(Item(a.target.classKey, saved));
  }
}

=== FILE: filters.dfy ===
/** `Filter`: a chain of constraint steps over a record type, optionally
    scoped to an association's id-set, resolved to a list of set keys and
    answered by intersecting them. A constraint on an attribute that is not
    indexed is dropped; one whose value resolves to no index entry sends
    the empty key name, which reads as the empty set. */
module Filters {
  import opened Ruby
  import opened RedisStore
  import opened Keys
  import opened Schema
  import opened Index
  import opened Records

  /** One `filter(opts)` call: attribute/value pairs in insertion order. */
  type Step = seq<(string, Value)>

  datatype Filter = Filter(initialKey: Option<string>, target: EntityType, steps: seq<Step>)

  /** `Filter.new(initial_key, associated_class)` */
  function NewFilter(initialKey: Option<string>, target: EntityType): (f: Filter)
    ensures f.steps == [] && f.initialKey == initialKey && f.target == target
  {
    Filter(initialKey, target, [])
  }

  /** `filter(opts)`: appends one step. */
  function AddStep(f: Filter, opts: Step): (g: Filter)
    ensures g.initialKey == f.initialKey && g.target == f.target
    ensures |g.steps| == |f.steps| + 1 && g.steps[|f.steps|] == opts
    ensures forall i :: 0 <= i < |f.steps| ==> g.steps[i] == f.steps[i]
  {
    f.(steps := f.steps + [opts])
  }

  /** The class-level `filter(opts)`: a filter over every record of the
      type, with no initial key. */
  function ClassFilter(t: EntityType, opts: Step): (f: Filter)
    ensures f.initialKey.None? && f.target == t && f.steps == [opts]
    ensures ResolveSteps(f) == StepKeys(t, opts)
  {
    var f := AddStep(NewFilter(None, t), opts);
    assert f.steps[1..] == [];
    assert AllStepKeys(t, f.steps) == StepKeys(t, opts) + [];
    f
  }

  /** The key a constraint sends: its index entry, or "" (a nil key) when
      the value resolves to none. */
  function ConstraintKey(t: EntityType, c: (string, Value)): string {
    match IndexKeyFor(t.classKey, c.0, c.1)
    case Some(k) => k
    case None => ""
  }

  /** The keys one step contributes: those of its indexed attributes. */
  function StepKeys(t: EntityType, step: Step): seq<string> {
    if step == [] then []
    else (if IsIndexed(t, step[0].0) then [ConstraintKey(t, step[0])] else []) + StepKeys(t, step[1..])
  }

  /** The keys of every step, flattened in order. */
  function AllStepKeys(t: EntityType, steps: seq<Step>): seq<string> {
    if steps == [] then [] else StepKeys(t, steps[0]) + AllStepKeys(t, steps[1..])
  }

  /** `resolve_steps` */
  function ResolveSteps(f: Filter): seq<string> {
    (if f.initialKey.Some? then [f.initialKey.value] else []) + AllStepKeys(f.target, f.steps)
  }

  /** A key of a step is exactly the key of one of its indexed constraints. */
  lemma {:induction false} StepKeysMembers(t: EntityType, step: Step, k: string)
    ensures k in StepKeys(t, step) <==>
      exists j :: 0 <= j < |step| && IsIndexed(t, step[j].0) && k == ConstraintKey(t, step[j])
  {
    if step != [] {
      StepKeysMembers(t, step[1..], k);
      if k in StepKeys(t, step[1..]) {
        var j :| 0 <= j < |step[1..]| && IsIndexed(t, step[1..][j].0) && k == ConstraintKey(t, step[1..][j]);
        assert step[j + 1] == step[1..][j];
      }
      if exists j :: 0 <= j < |step| && IsIndexed(t, step[j].0) && k == ConstraintKey(t, step[j]) {
        var j :| 0 <= j < |step| && IsIndexed(t, step[j].0) && k == ConstraintKey(t, step[j]);
        if j > 0 {
          assert step[1..][j - 1] == step[j];
        }
      }
    }
  }

  /** A resolved key is the initial key or the key of some indexed
      constraint of some step. */
  lemma {:induction false} AllStepKeysMembers(t: EntityType, steps: seq<Step>, k: string)
    ensures k in AllStepKeys(t, steps) <==>
      exists i, j :: 0 <= i < |steps| && 0 <= j < |steps[i]| && IsIndexed(t, steps[i][j].0) && k == ConstraintKey(t, steps[i][j])
  {
    if steps != [] {
      StepKeysMembers(t, steps[0], k);
      AllStepKeysMembers(t, steps[1..], k);
      if k in AllStepKeys(t, steps[1..]) {
        var i, j :| 0 <= i < |steps[1..]| && 0 <= j < |steps[1..][i]| && IsIndexed(t, steps[1..][i][j].0)
          && k == ConstraintKey(t, steps[1..][i][j]);
        assert steps[i + 1] == steps[1..][i];
      }
      if exists i, j :: 0 <= i < |steps| && 0 <= j < |steps[i]| && IsIndexed(t, steps[i][j].0) && k == ConstraintKey(t, steps[i][j]) {
        var i, j :| 0 <= i < |steps| && 0 <= j < |steps[i]| && IsIndexed(t, steps[i][j].0) && k == ConstraintKey(t, steps[i][j]);
        if i > 0 {
          assert steps[1..][i - 1] == steps[i];
        }
      }
    }
  }

  /** The id satisfies every constraint the filter keeps. */
  predicate Satisfies(st: Store, f: Filter, id: string) {
    && (f.initialKey.Some? ==> id in Members(st, f.initialKey.value))
    && forall i, j :: 0 <= i < |f.steps| && 0 <= j < |f.steps[i]| && IsIndexed(f.target, f.steps[i][j].0) ==>
         id in Members(st, ConstraintKey(f.target, f.steps[i][j]))
  }

  /** SINTER of the resolved keys holds exactly the ids that satisfy the
      filter. */
  lemma InterSatisfies(st: Store, f: Filter, id: string)
    requires ResolveSteps(f) != []
    ensures id in Inter(st, ResolveSteps(f)) <==> Satisfies(st, f, id)
  {
    var keys := ResolveSteps(f);
    if Satisfies(st, f, id) {
      forall n | 0 <= n < |keys| ensures id in Members(st, keys[n]) {
        AllStepKeysMembers(f.target, f.steps, keys[n]);
        if f.initialKey.None? || n > 0 {
          var m := if f.initialKey.None? then n else n - 1;
          assert keys[n] == AllStepKeys(f.target, f.steps)[m];
        }
      }
    }
    if id in Inter(st, keys) {
      forall i, j | 0 <= i < |f.steps| && 0 <= j < |f.steps[i]| && IsIndexed(f.target, f.steps[i][j].0)
        ensures id in Members(st, ConstraintKey(f.target, f.steps[i][j]))
      {
        var k := ConstraintKey(f.target, f.steps[i][j]);
        AllStepKeysMembers(f.target, f.steps, k);
        var rest := AllStepKeys(f.target, f.steps);
        var m :| 0 <= m < |rest| && rest[m] == k;
        var n := if f.initialKey.None? then m else m + 1;
        assert keys[n] == k;
      }
      if f.initialKey.Some? {
        assert keys[0] == f.initialKey.value;
      }
    }
  }

  /** The ids `all` loads: SINTER of the resolved keys, or nothing when
      there are no keys at all, which Redis refuses as too few arguments. */
  function FilterIds(st: Store, f: Filter): (r: Option<set<string>>)
    ensures r.None? <==> ResolveSteps(f) == []
    ensures r.Some? ==> forall id :: id in r.value <==> Satisfies(st, f, id)
  {
    var keys := ResolveSteps(f);
    if keys == [] then None
    else
      var r := Inter(st, keys);
      assert forall id :: id in r <==> Satisfies(st, f, id) by {
        forall id ensures id in r <==> Satisfies(st, f, id) {
          InterSatisfies(st, f, id);
        }
      }
      Some(r)
  }

  /** `all`: the records whose ids satisfy the filter, keyed by id. */
  function FilterAll(st: Store, f: Filter, dump: Value -> string): (r: Option<map<string, Record>>)
    ensures r.None? <==> ResolveSteps(f) == []
    ensures r.Some? ==> forall id :: id in r.value <==> Satisfies(st, f, id)
    ensures r.Some? ==> forall id :: id in r.value ==> r.value[id] == Load(f.target, st, id, dump)
  {
    match FilterIds(st, f)
    case None => None
    case Some(ids) => Some(map id | id in ids :: Load(f.target, st, id, dump))
  }

  /** `count`: SINTERSTORE into a fresh scratch set, SCARD, then DEL, whose
      reply is what is returned: 1 when the intersection was not empty and
      0 otherwise, not the number of matches. The store is left as it was. */
  function FilterCount(st: Store, f: Filter, hex: string): (r: Option<(nat, Store)>)
    requires TempKey(f.target.classKey, hex) !in st
    ensures r.None? <==> ResolveSteps(f) == []
    ensures r.Some? ==> r.value.1 == st
    ensures r.Some? ==> r.value.0 == (if exists id :: Satisfies(st, f, id) then 1 else 0)
  {
    var keys := ResolveSteps(f);
    if keys == [] then None
    else
      var tk := TempKey(f.target.classKey, hex);
      var s1 := InterStore(st, tk, keys);
      var deleted: nat := if tk in s1 then 1 else 0;
      assert Del(s1, tk) == st;
      assert (tk in s1) == exists id :: Satisfies(st, f, id) by {
        if tk in s1 {
          var id :| id in Inter(st, keys);
          InterSatisfies(st, f, id);
        }
        if exists id :: Satisfies(st, f, id) {
          var id :| Satisfies(st, f, id);
          InterSatisfies(st, f, id);
        }
      }
      Some((deleted, Del(s1, tk)))
  }

  datatype CountAttempt = Ran(result: Option<(nat, Store)>) | NoMethodError(name: string)

  /** `count` as written: it names its scratch key through
      `@associated_class.class_key`, a private class method called on an
      explicit receiver, so it raises before any command is sent. */
  function CountAsWritten(st: Store, f: Filter, hex: string): (r: CountAttempt)
    requires TempKey(f.target.classKey, hex) !in st
    ensures r.Ran? <==> CallableFromOutside("class_key", false)
    ensures r.Ran? ==> r.result == FilterCount(st, f, hex)
  {
    if CallableFromOutside("class_key", false) then Ran(FilterCount(st, f, hex))
    else NoMethodError("class_key")
  }

  /** Every call of `count` as written raises, whatever the filter. */
  lemma CountAsWrittenRaises(st: Store, f: Filter, hex: string)
    requires TempKey(f.target.classKey, hex) !in st
    ensures CountAsWritten(st, f, hex) == NoMethodError("class_key")
  {
  }

  /** The count the method's name promises: SINTERSTORE, then the SCARD
      reply, then DEL of the scratch set. */
  function FilterCardinality(st: Store, f: Filter, hex: string): (r: Option<(nat, Store)>)
    requires TempKey(f.target.classKey, hex) !in st
    ensures r.None? <==> ResolveSteps(f) == []
    ensures r.Some? ==> r.value.1 == st
    ensures r.Some? ==> r.value.0 == |FilterIds(st, f).value|
  {
    var keys := ResolveSteps(f);
    if keys == [] then None
    else
      var tk := TempKey(f.target.classKey, hex);
      var s1 := InterStore(st, tk, keys);
      assert Del(s1, tk) == st;
      Some((Card(s1, tk), Del(s1, tk)))
  }

  /** Two records holding the same indexed value: the DEL reply `count`
      returns is 1, while two records match. */
  lemma CountIsNotCardinality()
    ensures var t := EntityType("check", map["id" := StringType, "name" := StringType], ["name"]);
      var st := map[IndexKey("check", "name", "x") := SetOf({"1", "2"})];
      var f := ClassFilter(t, [("name", Str("x"))]);
      var hex := "0123456789abcdef0123456789abcdef";
      && FilterCount(st, f, hex) == Some((1, st))
      && FilterCardinality(st, f, hex) == Some((2, st))
  {
    var t := EntityType("check", map["id" := StringType, "name" := StringType], ["name"]);
    var k := IndexKey("check", "name", "x");
    var st := map[k := SetOf({"1", "2"})];
    var f := ClassFilter(t, [("name", Str("x"))]);
    var hex := "0123456789abcdef0123456789abcdef";
    assert TempKey("check", hex) != k by {
      assert TempKey("check", hex)[7] == 't' && k[7] == 'b';
    }
    assert ResolveSteps(f) == [k] by {
      assert StepKeys(t, [("name", Str("x"))]) == [k] + StepKeys(t, []);
    }
    assert Inter(st, [k]) == {"1", "2"};
    assert |{"1", "2"}| == 2;
  }

  /** A step whose attributes are none of them indexed changes nothing the
      filter resolves to. */
  lemma UnindexedStepDropped(f: Filter, opts: Step)
    requires forall j :: 0 <= j < |opts| ==> !IsIndexed(f.target, opts[j].0)
    ensures ResolveSteps(AddStep(f, opts)) == ResolveSteps(f)
  {
    AppendStep(f.target, f.steps, opts);
    NoIndexedNoKeys(f.target, opts);
  }

  lemma {:induction false} NoIndexedNoKeys(t: EntityType, step: Step)
    requires forall j :: 0 <= j < |step| ==> !IsIndexed(t, step[j].0)
    ensures StepKeys(t, step) == []
  {
    if step != [] {
      NoIndexedNoKeys(t, step[1..]);
    }
  }

  lemma {:induction false} AppendStep(t: EntityType, steps: seq<Step>, opts: Step)
    ensures AllStepKeys(t, steps + [opts]) == AllStepKeys(t, steps) + StepKeys(t, opts)
  {
    if steps == [] {
      assert steps + [opts] == [opts];
      assert [opts][1..] == [];
    } else {
      assert (steps + [opts])[1..] == steps[1..] + [opts];
      AppendStep(t, steps[1..], opts);
    }
  }
}

=== FILE: index.dfy ===
/** The per-attribute value index (`IndexAssociation`): a value resolves to
    the id-set `<class_key>::by_<att>:<value>` only when it is a String, a
    Symbol, true or false. Any other value resolves to no index, and then
    every operation reads as empty and writes nothing. */
module Index {
  import opened Ruby
  import opened RedisStore
  import opened Keys

  /** The text an indexable value contributes to its index key. */
  function IndexText(v: Value): (r: Option<string>)
    ensures r.Some? <==> v.Str? || v.Sym? || v.Bool?
    ensures r.Some? ==> HasText(v) && r.value == Text(v)
  {
    match v
    case Str(s) => Some(s)
    case Sym(n) => Some(n)
    case Bool(b) => Some(if b then "true" else "false")
    case _ => None
  }

  /** `key`: the index entry `v` resolves to, or nil. */
  function IndexKeyFor(cls: string, att: string, v: Value): (r: Option<string>)
    ensures r.Some? <==> v.Str? || v.Sym? || v.Bool?
    ensures r.Some? ==> r.value == IndexKey(cls, att, Text(v))
  {
    match IndexText(v)
    case None => None
    case Some(x) => Some(IndexKey(cls, att, x))
  }

  /** `ids`: the members of the entry, or [] when `v` is not indexable. */
  function IndexIds(st: Store, cls: string, att: string, v: Value): (r: set<string>)
    ensures IndexKeyFor(cls, att, v).None? ==> r == {}
    ensures IndexKeyFor(cls, att, v).Some? ==> r == Members(st, IndexKeyFor(cls, att, v).value)
  {
    match IndexKeyFor(cls, att, v)
    case None => {}
    case Some(k) => Members(st, k)
  }

  /** `count`: the entry's cardinality, or nil. */
  function IndexCount(st: Store, cls: string, att: string, v: Value): (r: Option<nat>)
    ensures r.Some? <==> v.Str? || v.Sym? || v.Bool?
    ensures r.Some? ==> r.value == |IndexIds(st, cls, att, v)|
  {
    match IndexKeyFor(cls, att, v)
    case None => None
    case Some(k) => Some(Card(st, k))
  }

  /** `add_id`: adds `id` to the entry `v` resolves to. The reply is nil when
      there is no entry, otherwise whether `id` was newly added. */
  function IndexAddId(st: Store, cls: string, att: string, v: Value, id: string): (r: (Store, Option<bool>))
    ensures IndexKeyFor(cls, att, v).None? ==> r == (st, None)
    ensures IndexKeyFor(cls, att, v).Some? ==>
      var k := IndexKeyFor(cls, att, v).value;
      && r.0 - {k} == st - {k}
      && (!HoldsOtherThanSet(st, k) ==> Members(r.0, k) == Members(st, k) + {id})
      && r.1 == Some(id !in Members(st, k))
  {
    match IndexKeyFor(cls, att, v)
    case None => (st, None)
    case Some(k) => (SAdd(st, k, {id}), Some(id !in Members(st, k)))
  }

  /** `delete_id`: removes `id` from the entry `v` resolves to. The reply is
      nil when there is no entry, otherwise whether `id` was a member. */
  function IndexDeleteId(st: Store, cls: string, att: string, v: Value, id: string): (r: (Store, Option<bool>))
    ensures IndexKeyFor(cls, att, v).None? ==> r == (st, None)
    ensures IndexKeyFor(cls, att, v).Some? ==>
      var k := IndexKeyFor(cls, att, v).value;
      && r.0 - {k} == st - {k}
      && Members(r.0, k) == Members(st, k) - {id}
      && r.1 == Some(id in Members(st, k))
  {
    match IndexKeyFor(cls, att, v)
    case None => (st, None)
    case Some(k) => (SRem(st, k, {id}), Some(id in Members(st, k)))
  }

  /** Adding an id twice leaves the entry as adding it once. */
  lemma AddIdIdempotent(st: Store, cls: string, att: string, v: Value, id: string)
    ensures var once := IndexAddId(st, cls, att, v, id).0;
      IndexIds(IndexAddId(once, cls, att, v, id).0, cls, att, v) == IndexIds(once, cls, att, v)
  {
  }

  /** After `add_id`, `ids` holds the id exactly when the value is indexable,
      and `delete_id` then takes it out again. */
  lemma AddThenDelete(st: Store, cls: string, att: string, v: Value, id: string)
    requires IndexKeyFor(cls, att, v).Some? ==> !HoldsOtherThanSet(st, IndexKeyFor(cls, att, v).value)
    ensures var added := IndexAddId(st, cls, att, v, id).0;
      && (id in IndexIds(added, cls, att, v) <==> (v.Str? || v.Sym? || v.Bool?))
      && id !in IndexIds(IndexDeleteId(added, cls, att, v, id).0, cls, att, v)
  {
  }
}

=== FILE: keys.dfy ===
/** How the record layer names its Redis keys, and why the names of one
    record never collide with its type's id-set or index entries: every
    proof that relies on this needs the id and the attribute names to be
    free of ':', the separator the key scheme does not escape. */
module Keys {
  import opened Ruby

  /** The type's id-set: `<class_key>::ids`. */
  function IdsKey(cls: string): string {
    cls + "::ids"
  }

  /** `<class_key>:<id>` */
  function RecordKey(cls: string, id: string): string {
    cls + ":" + id
  }

  /** The hash holding a record's simple attributes. */
  function AttrsKey(cls: string, id: string): string {
    RecordKey(cls, id) + ":attrs"
  }

  /** The list, set or hash holding one complex attribute. */
  function ComplexKey(cls: string, id: string, name: string): string {
    AttrsKey(cls, id) + ":" + name
  }

  /** The index entry for one attribute value: `<class_key>::by_<att>:<value>`. */
  function IndexKey(cls: string, att: string, text: string): string {
    cls + "::by_" + att + ":" + text
  }

  /** The scratch set of a set-intersection scan or a filter count. */
  function TempKey(cls: string, hex: string): string {
    cls + "::tmp:" + hex
  }

  /** A to-many association's id-set: `<record_key>:<singular name>_ids`. */
  function AssocKey(ownerKey: string, singular: string): string {
    ownerKey + ":" + singular + "_ids"
  }

  predicate ColonFree(s: string) {
    forall i :: 0 <= i < |s| ==> s[i] != ':'
  }

  lemma DifferAt(a: string, b: string, i: nat)
    requires i < |a| && i < |b| && a[i] != b[i]
    ensures a != b
  {
  }

  /** Two colon-free names of different lengths, each followed by ':',
      part at the shorter one's separator. */
  lemma FirstSeparator(a: string, x: string, b: string, y: string)
    requires ColonFree(a) && ColonFree(b) && |a| < |b|
    ensures a + ":" + x != b + ":" + y
  {
    DifferAt(a + ":" + x, b + ":" + y, |a|);
  }

  /** Distinct attributes, or distinct values of one attribute, have
      distinct index entries. */
  lemma IndexKeyInjective(cls: string, a: string, x: string, b: string, y: string)
    requires ColonFree(a) && ColonFree(b)
    ensures IndexKey(cls, a, x) == IndexKey(cls, b, y) ==> a == b && x == y
  {
    var p := cls + "::by_";
    var s := a + ":" + x;
    var t := b + ":" + y;
    assert IndexKey(cls, a, x) == p + s;
    assert IndexKey(cls, b, y) == p + t;
    if p + s == p + t {
      assert s == (p + s)[|p|..] == (p + t)[|p|..] == t;
      if |a| < |b| {
        FirstSeparator(a, x, b, y);
      } else if |b| < |a| {
        FirstSeparator(b, y, a, x);
      }
      assert a == s[..|a|] == t[..|b|] == b;
      assert x == s[|a| + 1..] == t[|b| + 1..] == y;
    }
  }

  /** An index entry is never a record's attribute hash or complex key. */
  lemma IndexKeyNotRecordKey(cls: string, att: string, x: string, id: string, name: string)
    requires ColonFree(id)
    ensures IndexKey(cls, att, x) != AttrsKey(cls, id)
    ensures IndexKey(cls, att, x) != ComplexKey(cls, id, name)
  {
    var u := IndexKey(cls, att, x);
    var v := AttrsKey(cls, id);
    var w := ComplexKey(cls, id, name);
    assert u == cls + ("::by_" + att + ":" + x);
    assert v == cls + (":" + id + ":attrs");
    assert w == cls + (":" + id + ":attrs" + ":" + name);
    var n := |cls|;
    assert u[n + 1] == ':' && u[n + 2] == 'b';
    if |id| > 0 {
      assert v[n + 1] == id[0] && w[n + 1] == id[0];
      DifferAt(u, v, n + 1);
      DifferAt(u, w, n + 1);
    } else {
      assert v[n + 2] == 'a' && w[n + 2] == 'a';
      DifferAt(u, v, n + 2);
      DifferAt(u, w, n + 2);
    }
  }

  /** An index entry is never the type's id-set. */
  lemma IndexKeyNotIdsKey(cls: string, att: string, x: string)
    ensures IndexKey(cls, att, x) != IdsKey(cls)
  {
    var u := IndexKey(cls, att, x);
    assert u == cls + ("::by_" + att + ":" + x);
    assert u[|cls| + 2] == 'b' && IdsKey(cls)[|cls| + 2] == 'i';
  }

  /** A record's own keys are never the type's id-set. */
  lemma RecordKeysNotIdsKey(cls: string, id: string, name: string)
    requires ColonFree(id)
    ensures AttrsKey(cls, id) != IdsKey(cls)
    ensures ComplexKey(cls, id, name) != IdsKey(cls)
  {
    var i := IdsKey(cls);
    var v := AttrsKey(cls, id);
    var w := ComplexKey(cls, id, name);
    assert i == cls + "::ids";
    assert v == cls + (":" + id + ":attrs");
    assert w == cls + (":" + id + ":attrs" + ":" + name);
    var n := |cls|;
    if |id| > 0 {
      assert v[n + 1] == id[0] && w[n + 1] == id[0] && i[n + 1] == ':';
      DifferAt(i, v, n + 1);
      DifferAt(i, w, n + 1);
    } else {
      assert v[n + 2] == 'a' && w[n + 2] == 'a' && i[n + 2] == 'i';
      DifferAt(i, v, n + 2);
      DifferAt(i, w, n + 2);
    }
  }

  /** Distinct complex attributes of one record have distinct keys, and none
      of them is the record's attribute hash. */
  lemma ComplexKeysDistinct(cls: string, id: string, a: string, b: string)
    ensures ComplexKey(cls, id, a) != AttrsKey(cls, id)
    ensures ComplexKey(cls, id, a) == ComplexKey(cls, id, b) ==> a == b
  {
    var p := AttrsKey(cls, id) + ":";
    assert ComplexKey(cls, id, a) == p + a;
    assert ComplexKey(cls, id, b) == p + b;
    if ComplexKey(cls, id, a) == ComplexKey(cls, id, b) {
      assert a == (p + a)[|p|..] == (p + b)[|p|..] == b;
    }
  }

  /** Distinct ids have distinct attribute hashes. */
  lemma AttrsKeyInjective(cls: string, i: string, j: string)
    ensures AttrsKey(cls, i) == AttrsKey(cls, j) ==> i == j
  {
    var p := cls + ":";
    assert AttrsKey(cls, i) == p + i + ":attrs";
    assert AttrsKey(cls, j) == p + j + ":attrs";
    if AttrsKey(cls, i) == AttrsKey(cls, j) {
      assert |i| == |j|;
      assert i == AttrsKey(cls, i)[|p|..|p| + |i|] == AttrsKey(cls, j)[|p|..|p| + |j|] == j;
    }
  }

  /** Every key a record of type `cls` touches starts with `cls:`. */
  predicate InNamespace(cls: string, k: string) {
    |k| > |cls| && k[..|cls| + 1] == cls + ":"
  }

  lemma KeysInNamespace(cls: string, id: string, att: string, x: string)
    ensures InNamespace(cls, IdsKey(cls))
    ensures InNamespace(cls, AttrsKey(cls, id))
    ensures InNamespace(cls, ComplexKey(cls, id, att))
    ensures InNamespace(cls, IndexKey(cls, att, x))
  {
    assert IdsKey(cls) == (cls + ":") + ":ids";
    assert AttrsKey(cls, id) == (cls + ":") + (id + ":attrs");
    assert ComplexKey(cls, id, att) == (cls + ":") + (id + ":attrs:" + att);
    assert IndexKey(cls, att, x) == (cls + ":") + (":by_" + att + ":" + x);
  }

  /** The glob `<class_key>:*:attrs:<name>` that KEYS is given when scanning
      one complex attribute of every record (the `*` may span ':'). */
  predicate MatchesComplexPattern(k: string, cls: string, name: string) {
    var p := cls + ":";
    var s := ":attrs:" + name;
    |k| >= |p| + |s| && k[..|p|] == p && k[|k| - |s|..] == s
  }

  /** The regex `\A<class_key>:([^:]+):attrs:<name>\z`: the id of the record
      a complex-attribute key belongs to, when the part between the fixed
      ends is non-empty and free of ':'. */
  function IdFromComplexKey(k: string, cls: string, name: string): (r: Option<string>)
    ensures r.Some? ==> ColonFree(r.value) && r.value != [] && k == ComplexKey(cls, r.value, name)
    ensures r.Some? ==> MatchesComplexPattern(k, cls, name)
  {
    var p := cls + ":";
    var s := ":attrs:" + name;
    if MatchesComplexPattern(k, cls, name) && |k| > |p| + |s| && ColonFree(k[|p|..|k| - |s|]) then
      var id := k[|p|..|k| - |s|];
      assert k == k[..|p|] + id + k[|k| - |s|..];
      Some(id)
    else None
  }

  /** Every record's complex-attribute key matches the glob, and the regex
      gives its id back when the id is non-empty and free of ':'. */
  lemma ComplexKeyRoundTrip(cls: string, id: string, name: string)
    requires ColonFree(id) && id != []
    ensures MatchesComplexPattern(ComplexKey(cls, id, name), cls, name)
    ensures IdFromComplexKey(ComplexKey(cls, id, name), cls, name) == Some(id)
  {
    var p := cls + ":";
    var s := ":attrs:" + name;
    var k := ComplexKey(cls, id, name);
    assert k == p + id + s;
    assert k[..|p|] == p;
    assert k[|k| - |s|..] == s;
    assert k[|p|..|k| - |s|] == id;
  }

  /** A scratch key never matches the glob of a complex attribute whose name
      is free of ':', as long as the class key and the hex are too. */
  lemma TempKeyNotMatched(cls: string, hex: string, name: string)
    ensures ColonFree(cls) && ColonFree(hex) && |hex| == 32 && ColonFree(name) ==>
      !MatchesComplexPattern(TempKey(cls, hex), cls, name)
  {
    if ColonFree(cls) && ColonFree(hex) && |hex| == 32 && ColonFree(name) {
      var k := TempKey(cls, hex);
      var s := ":attrs:" + name;
      var n := |cls|;
      assert k == cls + "::tmp:" + hex;
      assert |k| == n + 38;
      if |k| >= |s| {
        var o := |k| - |s|;
        var u := k[o..];
        assert |u| == |s|;
        if |name| == 32 {
          // Both separators line up, but "tmp" is not "attrs".
          assert u[5] == k[n + 4] == 'p' && s[5] == 's';
          DifferAt(u, s, 5);
        } else if |name| < 32 {
          // The second separator of the suffix falls inside the hex.
          assert u[6] == k[o + 6] == hex[o + 6 - n - 6];
          DifferAt(u, s, 6);
        } else {
          // The last ':' of the scratch key falls inside the name.
          var i := n + 5 - o;
          assert 7 <= i < |s|;
          assert u[i] == k[n + 5] == ':';
          assert s[i] == name[i - 7];
          DifferAt(u, s, i);
        }
      }
    }
  }

  /** The attribute hash is never the id-set: it is always the longer. */
  lemma AttrsKeyNotIdsKey(cls: string, id: string)
    ensures AttrsKey(cls, id) != IdsKey(cls)
  {
    assert |AttrsKey(cls, id)| > |IdsKey(cls)|;
  }

  /** A scratch key is never the id-set. */
  lemma TempKeyNotIdsKey(cls: string, hex: string)
    ensures TempKey(cls, hex) != IdsKey(cls)
  {
    var k := TempKey(cls, hex);
    assert k == cls + ("::tmp:" + hex);
    assert IdsKey(cls) == cls + "::ids";
    assert k[|cls| + 2] == 't' && IdsKey(cls)[|cls| + 2] == 'i';
    DifferAt(k, IdsKey(cls), |cls| + 2);
  }
}

=== FILE: pushover.dfy ===
/** The decisions the Pushover gateway makes for one alert before and after
    the HTTP POST: the colour and priority of the message, the checks on
    its configuration, the channel and message type, and when a reply
    counts as a sent message. The request itself is a parameter: its
    status, or none when there was no response to read it from. */
module Pushover {
  import opened Ruby

  /** The parts of an alert the decisions read. `rollup` is whether the
      alert is a rollup. */
  datatype Alert = Alert(address: string, entity: string, rollup: bool, state: string, notificationType: string)

  /** The gateway's configuration entries, as read from its config hash. */
  datatype Config = Config(endpoint: Value, appKey: Value, usrKey: Value, emergencyExpire: Value, emergencyRetry: Value)

  datatype Style = Style(color: string, priority: int)

  predicate IsRecovery(a: Alert) {
    a.state == "ok" && a.notificationType == "recovery"
  }

  predicate IsProblem(a: Alert) {
    a.state == "warning" || a.state == "critical"
  }

  /** The colour and priority table, decided in order: an ok recovery, a
      warning, a critical, an acknowledgement, anything else. */
  function MessageStyle(a: Alert): (s: Style)
    ensures s.priority == -1 || s.priority == 1
    ensures s.priority == 1 <==> IsProblem(a)
    ensures s.color == "#ffff00" <==> a.state == "warning"
    ensures s.color == "#ff0000" <==> a.state == "critical"
    ensures s.color == "#0000ff" <==> !IsProblem(a) && a.notificationType == "acknowledgement"
    ensures s.color == "#00ff00" <==> !IsProblem(a) && a.notificationType != "acknowledgement"
  {
    if a.state == "ok" && a.notificationType == "recovery" then Style("#00ff00", -1)
    else if a.state == "warning" then Style("#ffff00", 1)
    else if a.state == "critical" then Style("#ff0000", 1)
    else if a.notificationType == "acknowledgement" then Style("#0000ff", -1)
    else Style("#00ff00", -1)
  }

  /** An ok recovery is green and low priority whatever else holds. */
  lemma RecoveryFirst(a: Alert)
    requires IsRecovery(a)
    ensures MessageStyle(a) == Style("#00ff00", -1)
  {
  }

  /** The state decides before the notification type does: an
      acknowledgement of a warning or a critical keeps the problem's colour
      and priority. */
  lemma ProblemBeatsAcknowledgement(a: Alert)
    requires a.notificationType == "acknowledgement"
    ensures a.state == "warning" ==> MessageStyle(a) == Style("#ffff00", 1)
    ensures a.state == "critical" ==> MessageStyle(a) == Style("#ff0000", 1)
    ensures !IsProblem(a) ==> MessageStyle(a) == Style("#0000ff", -1)
  {
  }

  /** `channel`: '#' and the address, or '#general' when the address is
      empty. */
  function Channel(address: string): (c: string)
    ensures |c| >= 2 && c[0] == '#'
    ensures address != "" ==> c[1..] == address
    ensures address == "" ==> c == "#general"
  {
    var c := "#" + address;
    if |c| == 1 then "#general" else c
  }

  /** `message_type`: "-1" for a rollup, "1" otherwise. */
  function MessageType(rollup: bool): (t: string)
    ensures t == "-1" || t == "1"
    ensures t == "-1" <==> rollup
  {
    if rollup then "-1" else "1"
  }

  /** A configuration entry that is nil, or empty where emptiness is
      defined: strings, symbols and collections. */
  predicate Missing(v: Value) {
    match v
    case Nil => true
    case Str(s) => s == ""
    case Sym(n) => n == ""
    case Array(xs) => xs == []
    case RSet(m) => m == {}
    case Hash(e) => e == map[]
    case _ => false
  }

  const EndpointMissing := "Pushover endpoint is missing"
  const AppKeyMissing := "Pushover app_key is missing"
  const UsrKeyMissing := "Pushover usr_key is missing"

  /** Where an error message sits in the order the entries are checked. */
  function Rank(e: string): int {
    if e == EndpointMissing then 0 else if e == AppKeyMissing then 1 else 2
  }

  /** The configuration errors, in the order endpoint, app_key, usr_key:
      one for each entry that is missing, and no other. */
  function ConfigErrors(c: Config): (errs: seq<string>)
    ensures EndpointMissing in errs <==> Missing(c.endpoint)
    ensures AppKeyMissing in errs <==> Missing(c.appKey)
    ensures UsrKeyMissing in errs <==> Missing(c.usrKey)
    ensures forall i :: 0 <= i < |errs| ==> errs[i] in {EndpointMissing, AppKeyMissing, UsrKeyMissing}
    ensures forall i, j :: 0 <= i < j < |errs| ==> Rank(errs[i]) < Rank(errs[j])
    ensures errs == [] <==> !Missing(c.endpoint) && !Missing(c.appKey) && !Missing(c.usrKey)
  {
    (if Missing(c.endpoint) then [EndpointMissing] else [])
    + (if Missing(c.appKey) then [AppKeyMissing] else [])
    + (if Missing(c.usrKey) then [UsrKeyMissing] else [])
  }

  /** The form fields posted to the endpoint, but for the message text. */
  datatype Payload = Payload(token: Value, user: Value, html: int, title: string, priority: int, expire: Value, retry: Value)

  /** Only a status from 200 to 206 counts as a sent message. */
  predicate Success(status: int) {
    200 <= status <= 206
  }

  datatype Delivery =
    | Refused(errors: seq<string>)             // logged, and nothing is posted
    | Posted(payload: Payload, sent: nat)      // the request was made
    | Failed                                   // no status to compare: the error is raised

  /** `deliver`: refuses when the configuration has errors; otherwise posts
      the payload and counts the message as sent when the reply's status is
      a success. `status` is the reply's status, or none when there is no
      response. */
  function Deliver(c: Config, a: Alert, sent: nat, status: Option<int>): (d: Delivery)
    ensures d.Refused? <==> ConfigErrors(c) != []
    ensures d.Refused? ==> d.errors == ConfigErrors(c)
    ensures d.Failed? <==> ConfigErrors(c) == [] && status.None?
    ensures d.Posted? ==> d.sent == (if Success(status.value) then sent + 1 else sent)
    ensures d.Posted? ==> d.payload.token == c.appKey && d.payload.user == c.usrKey
    ensures d.Posted? ==> d.payload.priority == MessageStyle(a).priority && d.payload.title == a.entity
  {
    var errs := ConfigErrors(c);
    if errs != [] then Refused(errs)
    else
      var payload := Payload(c.appKey, c.usrKey, 1, a.entity, MessageStyle(a).priority, c.emergencyExpire, c.emergencyRetry);
      match status
      case None => Failed
      case Some(s) => Posted(payload, if 200 <= s && s <= 206 then sent + 1 else sent)
  }

  /** The sent count after one delivery attempt; a raised error leaves it
      as it was, since the gateway's loop rescues it. */
  function SentAfter(c: Config, a: Alert, sent: nat, status: Option<int>): nat {
    match Deliver(c, a, sent, status)
    case Posted(_, n) => n
    case _ => sent
  }

  /** The gateway's loop over a run of alerts and their replies. */
  function SentAfterAll(c: Config, alerts: seq<Alert>, statuses: seq<Option<int>>, sent: nat): nat
    requires |alerts| == |statuses|
  {
    if alerts == [] then sent
    else SentAfterAll(c, alerts[1..], statuses[1..], SentAfter(c, alerts[0], sent, statuses[0]))
  }

  /** The replies that count as sent messages. */
  function Successes(statuses: seq<Option<int>>): set<nat> {
    set i: nat | i < |statuses| && statuses[i].Some? && Success(statuses[i].value)
  }

  /** Over any run, the sent count grows by exactly the number of successful
      replies when the configuration is complete, and not at all
      otherwise. */
  lemma {:induction false} SentCountsSuccesses(c: Config, alerts: seq<Alert>, statuses: seq<Option<int>>, sent: nat)
    requires |alerts| == |statuses|
    ensures ConfigErrors(c) == [] ==> SentAfterAll(c, alerts, statuses, sent) == sent + |Successes(statuses)|
    ensures ConfigErrors(c) != [] ==> SentAfterAll(c, alerts, statuses, sent) == sent
    decreases |alerts|
  {
    if alerts != [] {
      var n := SentAfter(c, alerts[0], sent, statuses[0]);
      SentCountsSuccesses(c, alerts[1..], statuses[1..], n);
      SuccessesSplit(statuses);
      ShiftSize(Successes(statuses[1..]));
    }
  }

  /** The successful replies of a run are its first reply, when that one
      succeeds, and the successes of the rest moved one place up. */
  lemma SuccessesSplit(statuses: seq<Option<int>>)
    requires statuses != []
    ensures Successes(statuses) ==
      (if statuses[0].Some? && Success(statuses[0].value) then {0} else {}) + Shift(Successes(statuses[1..]))
  {
    var rest := Successes(statuses[1..]);
    forall i: nat | i in Successes(statuses) && i > 0 ensures i in Shift(rest) {
      assert statuses[1..][i - 1] == statuses[i];
      assert i - 1 in rest;
    }
  }

  /** Every index moved one place up. */
  function Shift(s: set<nat>): set<nat> {
    set i: nat | i in s :: i + 1
  }

  lemma {:induction false} ShiftSize(s: set<nat>)
    ensures |Shift(s)| == |s|
    decreases |s|
  {
    if s != {} {
      var x :| x in s;
      ShiftSize(s - {x});
      assert Shift(s) == Shift(s - {x}) + {x + 1} by {
        forall y | y in Shift(s) ensures y in Shift(s - {x}) + {x + 1} {
          var i: nat :| i in s && y == i + 1;
          if i != x {
            assert i in s - {x};
          }
        }
      }
      assert x + 1 !in Shift(s - {x});
    }
  }
}

=== FILE: queries.dfy ===
/** The class-level operations of a record type: its id-set (`count`,
    `ids`, `add_id`, `delete_id`, `exists?`), the lookups `find_by_id`,
    `find_by`, `all` and `find_by_set_intersection`, and `delete_all`. */
module Queries {
  import opened Ruby
  import opened RedisStore
  import opened Keys
  import opened Schema
  import opened Index
  import opened Validation
  import opened Records
  import opened SaveProofs
  import Filters

  /** `ids`: the members of the type's id-set. */
  function Ids(st: Store, t: EntityType): set<string> {
    Members(st, IdsKey(t.classKey))
  }

  /** `count` */
  function Count(st: Store, t: EntityType): nat {
    Card(st, IdsKey(t.classKey))
  }

  /** `add_id`: adds `id.to_s`, replying whether it was not yet a member. */
  function AddId(st: Store, t: EntityType, id: Value): (r: (Store, bool))
    requires HasText(id)
    ensures r.0 - {IdsKey(t.classKey)} == st - {IdsKey(t.classKey)}
    ensures !HoldsOtherThanSet(st, IdsKey(t.classKey)) ==> Ids(r.0, t) == Ids(st, t) + {Text(id)}
    ensures r.1 <==> Text(id) !in Ids(st, t)
  {
    (SAdd(st, IdsKey(t.classKey), {Text(id)}), Text(id) !in Ids(st, t))
  }

  /** `delete_id`: removes `id.to_s`, replying whether it was a member. */
  function DeleteId(st: Store, t: EntityType, id: Value): (r: (Store, bool))
    requires HasText(id)
    ensures r.0 - {IdsKey(t.classKey)} == st - {IdsKey(t.classKey)}
    ensures Ids(r.0, t) == Ids(st, t) - {Text(id)}
    ensures r.1 <==> Text(id) in Ids(st, t)
  {
    (SRem(st, IdsKey(t.classKey), {Text(id)}), Text(id) in Ids(st, t))
  }

  /** `exists?` */
  predicate Exists(st: Store, t: EntityType, id: Value)
    requires HasText(id)
  {
    Text(id) in Ids(st, t)
  }

  /** Adding an id twice counts it once; after adding it exists, and after
      deleting it does not. */
  lemma {:induction false} IdSetLaws(st: Store, t: EntityType, id: Value)
    requires HasText(id) && !HoldsOtherThanSet(st, IdsKey(t.classKey))
    ensures var once := AddId(st, t, id).0;
      && Exists(once, t, id)
      && Count(AddId(once, t, id).0, t) == Count(once, t)
      && !AddId(once, t, id).1
      && !Exists(DeleteId(once, t, id).0, t, id)
  {
    var once := AddId(st, t, id).0;
    assert !HoldsOtherThanSet(once, IdsKey(t.classKey));
    assert Ids(AddId(once, t, id).0, t) == Ids(once, t);
  }

  /** `find_by_id`: nothing for a nil or false id or one not in the id-set;
      otherwise the record loaded under `id.to_s`. */
  function FindById(st: Store, t: EntityType, id: Value, dump: Value -> string): (r: Option<Record>)
    requires HasText(id)
    ensures r.Some? <==> Truthy(id) && Exists(st, t, id)
    ensures r.Some? ==> r.value.changedFrom == map[] && r.value.previousChanges == map[]
    ensures r.Some? && "id" !in HGetAll(st, AttrsKey(t.classKey, Text(id))) && "id" !in ComplexAttributes(t) ==>
      IdOf(r.value) == Some(Text(id))
  {
    if Truthy(id) && Exists(st, t, id) then Some(Load(t, st, Text(id), dump)) else None
  }

  /** `all`: every record of the type, keyed by id. */
  function All(st: Store, t: EntityType, dump: Value -> string): (r: map<string, Record>)
    ensures r.Keys == Ids(st, t)
    ensures forall id :: id in r ==> r[id] == Load(t, st, id, dump)
    ensures forall id :: id in r ==> r[id].changedFrom == map[]
  {
    map id | id in Ids(st, t) :: Load(t, st, id, dump)
  }

  /** `all` holds exactly the records `find_by_id` finds, id by id. */
  lemma AllIsFindById(st: Store, t: EntityType, id: string, dump: Value -> string)
    ensures id in All(st, t, dump) <==> FindById(st, t, Str(id), dump).Some?
    ensures id in All(st, t, dump) ==> All(st, t, dump)[id] == FindById(st, t, Str(id), dump).value
  {
    assert Text(Str(id)) == id && Truthy(Str(id));
  }

  /** `find_by(att, value)`: nothing unless `att` is indexed; otherwise the
      records whose ids the value's index entry holds, keyed by id. */
  function FindBy(st: Store, t: EntityType, att: string, v: Value, dump: Value -> string): (r: Option<map<string, Record>>)
    ensures r.None? <==> !IsIndexed(t, att)
    ensures r.Some? ==> r.value.Keys == IndexIds(st, t.classKey, att, v)
    ensures r.Some? ==> forall id :: id in r.value ==> r.value[id] == Load(t, st, id, dump)
    ensures r.Some? && !(v.Str? || v.Sym? || v.Bool?) ==> r.value == map[]
  {
    if !IsIndexed(t, att) then None
    else Some(map id | id in IndexIds(st, t.classKey, att, v) :: Load(t, st, id, dump))
  }

  /** A saved record is found by its id. */
  lemma SaveThenFindById(t: EntityType, st: Store, r: Record, newId: string, dump: Value -> string)
    requires Saveable(t, r, newId)
    requires !HoldsOtherThanSet(st, IdsKey(t.classKey))
    ensures FindById(Save(t, st, r, newId, dump).store, t, Str(SaveId(r, newId)), dump).Some?
  {
    SaveAddsId(t, st, r, newId, dump);
  }

  /** A saved record is found by the new value of each changed indexed
      attribute that resolves to an index entry. */
  lemma SaveThenFindBy(t: EntityType, st: Store, r: Record, newId: string, dump: Value -> string, a: string)
    requires Saveable(t, r, newId)
    requires IndexEntriesAreSets(st, t.classKey)
    requires a != "id" && IsIndexed(t, a) && a in r.changedFrom
    requires Get(r, a).Str? || Get(r, a).Sym? || Get(r, a).Bool?
    ensures var found := FindBy(Save(t, st, r, newId, dump).store, t, a, Get(r, a), dump);
      found.Some? && SaveId(r, newId) in found.value
  {
    SaveMovesIndexEntry(t, st, r, newId, dump, a);
  }

  // ----------------------------------------------------------- delete_all

  /** No record's attribute hash holds a field named `id`; save never
      writes one, and one would replace the id a reload starts from. */
  ghost predicate NoStoredIdFields(st: Store, cls: string) {
    forall i :: "id" !in HGetAll(st, AttrsKey(cls, i))
  }

  /** A destroy takes exactly its own id out of the id-set. */
  lemma DestroyDropsOnlyItsId(t: EntityType, st: Store, r: Record)
    requires IdOf(r).Some?
    ensures Ids(Destroy(t, st, r).value, t) == Ids(st, t) - {IdOf(r).value}
  {
    var cls, id := t.classKey, IdOf(r).value;
    var ik := IdsKey(cls);
    var s1 := SRem(st, ik, {id});
    var s2 := SRemEach(s1, HeldIndexKeys(t, r), id);
    forall k | k in HeldIndexKeys(t, r) ensures k != ik {
      var a :| a in r.attrs && a != "id" && IsIndexed(t, a) && IndexKeyFor(cls, a, r.attrs[a]).Some?
        && k == IndexKeyFor(cls, a, r.attrs[a]).value;
      IndexKeyNotIdsKey(cls, a, Text(r.attrs[a]));
    }
    AttrsKeyNotIdsKey(cls, id);
    Untouched(s2, Destroy(t, st, r).value, AttrsKey(cls, id), ik);
  }

  /** A destroy either leaves a hash as it was or removes it. */
  lemma DestroyKeepsOrDropsHashes(t: EntityType, st: Store, r: Record, k: string)
    requires IdOf(r).Some?
    ensures var h := HGetAll(Destroy(t, st, r).value, k);
      h == HGetAll(st, k) || h == map[]
  {
    var cls, id := t.classKey, IdOf(r).value;
    var ik := IdsKey(cls);
    var s1 := SRem(st, ik, {id});
    var s2 := SRemEach(s1, HeldIndexKeys(t, r), id);
    var s3 := Destroy(t, st, r).value;
    if k != AttrsKey(cls, id) {
      Untouched(s2, s3, AttrsKey(cls, id), k);
      if HoldsOtherThanSet(st, k) {
        if k != ik {
          Untouched(st, s1, ik, k);
        }
        assert Agree(s1, s2, k);
      }
    }
  }

  /** `delete_all`: loads and destroys each id the id-set held when the scan
      started. Afterwards the id-set is empty, and no key outside the type's
      namespace has changed. */
  method DeleteAll(t: EntityType, st: Store, dump: Value -> string) returns (r: Store)
    requires WellFormed(t)
    requires NoStoredIdFields(st, t.classKey)
    ensures Ids(r, t) == {}
    ensures forall k :: !InNamespace(t.classKey, k) ==> Agree(st, r, k)
  {
    var cls := t.classKey;
    r := st;
    var todo := Ids(st, t);
    while todo != {}
      invariant Ids(r, t) == todo
      invariant NoStoredIdFields(r, cls)
      invariant forall k :: !InNamespace(cls, k) ==> Agree(st, r, k)
      decreases todo
    {
      var id :| id in todo;
      var rec := Load(t, r, id, dump);
      assert "id" !in HGetAll(r, AttrsKey(cls, id));
      assert IdOf(rec) == Some(id);
      var d := Destroy(t, r, rec);
      DestroyDropsOnlyItsId(t, r, rec);
      forall k | !InNamespace(cls, k) ensures Agree(r, d.value, k) {
        DestroyStaysInNamespace(t, r, rec, k);
      }
      forall i ensures "id" !in HGetAll(d.value, AttrsKey(cls, i)) {
        DestroyKeepsOrDropsHashes(t, r, rec, AttrsKey(cls, i));
      }
      r := d.value;
      todo := todo - {id};
    }
  }

  // ---------------------------------------------- find_by_set_intersection

  datatype Scan =
    | NoValues                                 // blank values: nil, nothing sent
    | Matched(found: map<string, Option<Record>>)
    | WrongKind                                // SDIFF met a key that is not a set, and raised

  /** The members sent to the scratch set. */
  function ValueSet(values: seq<string>): set<string> {
    set i | 0 <= i < |values| :: values[i]
  }

  /** `load_from_key`: the record whose complex-attribute key `k` is, found
      by the id the regex extracts, or nothing when the regex fails. */
  function LoadFromKey(st: Store, t: EntityType, k: string, name: string, dump: Value -> string): (r: Option<Record>)
    ensures r.Some? <==> IdFromComplexKey(k, t.classKey, name).Some? && IdFromComplexKey(k, t.classKey, name).value in Ids(st, t)
  {
    match IdFromComplexKey(k, t.classKey, name)
    case None => None
    case Some(id) => FindById(st, t, Str(id), dump)
  }

  /** The keys KEYS returns for the scan. */
  function ScanKeys(st: Store, cls: string, name: string): set<string> {
    set k | k in st && MatchesComplexPattern(k, cls, name)
  }

  /** `find_by_set_intersection(name, *values)`: sends the values to a fresh
      scratch set, and for every key matching `<class_key>:*:attrs:<name>`
      that holds every value, loads the record the key belongs to. The
      scratch set is deleted at the end, but not when a matched key is not
      a set and the SDIFF raises. Results are keyed by the key they came
      from; KEYS returns them in no particular order. */
  function FindBySetIntersection(t: EntityType, st: Store, name: string, values: seq<string>, hex: string, dump: Value -> string): (res: (Scan, Store))
    requires TempKey(t.classKey, hex) !in st
    ensures res.0.NoValues? <==> values == []
    ensures !res.0.WrongKind? ==> res.1 == st
    ensures res.0.WrongKind? ==>
      && res.1 - {TempKey(t.classKey, hex)} == st - {TempKey(t.classKey, hex)}
      && Members(res.1, TempKey(t.classKey, hex)) == ValueSet(values)
    ensures res.0.WrongKind? ==> exists k :: k in ScanKeys(res.1, t.classKey, name) && HoldsOtherThanSet(st, k)
    ensures res.0.Matched? && ColonFree(t.classKey) && IsHexId(hex) && ColonFree(name) ==>
      forall k :: k in res.0.found <==> k in ScanKeys(st, t.classKey, name) && ValueSet(values) <= Members(st, k)
    ensures res.0.Matched? ==> forall k :: k in res.0.found ==>
      (res.0.found[k].Some? <==> IdFromComplexKey(k, t.classKey, name).Some? && IdFromComplexKey(k, t.classKey, name).value in Ids(st, t))
  {
    if values == [] then (NoValues, st)
    else
      var tk := TempKey(t.classKey, hex);
      assert values[0] in ValueSet(values);
      var s1 := SAdd(st, tk, ValueSet(values));
      assert Members(st, tk) == {} && !HoldsOtherThanSet(st, tk);
      assert Members(st, tk) + ValueSet(values) == ValueSet(values);
      var keys := ScanKeys(s1, t.classKey, name);
      if exists k :: k in keys && HoldsOtherThanSet(s1, k) then
        (WrongKind, s1)
      else
        TempKeyNotIdsKey(t.classKey, hex);
        assert Ids(s1, t) == Ids(st, t);
        TempKeyNotMatched(t.classKey, hex, name);
        var found := map k | k in keys && Diff(s1, tk, k) == {} :: LoadFromKey(s1, t, k, name, dump);
        assert Del(s1, tk) == st;
        (Matched(found), Del(s1, tk))
  }

  /** The scan finds a record whose set attribute holds every value. */
  lemma ScanFindsSuperset(t: EntityType, s: Store, name: string, values: seq<string>, hex: string, dump: Value -> string, id: string)
    requires TempKey(t.classKey, hex) !in s
    requires ColonFree(t.classKey) && IsHexId(hex) && ColonFree(name) && ColonFree(id) && id != []
    requires id in Ids(s, t) && values != []
    requires ComplexKey(t.classKey, id, name) in s && s[ComplexKey(t.classKey, id, name)].SetOf?
    requires ValueSet(values) <= s[ComplexKey(t.classKey, id, name)].members
    ensures var res := FindBySetIntersection(t, s, name, values, hex, dump).0;
      var ck := ComplexKey(t.classKey, id, name);
      res.WrongKind? || (res.Matched? && ck in res.found && res.found[ck].Some?)
  {
    ComplexKeyRoundTrip(t.classKey, id, name);
    assert ComplexKey(t.classKey, id, name) in ScanKeys(s, t.classKey, name);
  }

  /** A key refilled from a non-empty set value holds that set's members. */
  lemma PopulatedSet(s: Store, ck: string, ty: AttrType, v: Value)
    requires ty == SetType && v.RSet? && v.members != {}
    requires Accepts(ty, v) && ck in s && s[ck] == Populated(ty, v)
    ensures s[ck] == SetOf(v.members)
  {
  }

  /** After a save, the key of a non-empty set attribute holds its members,
      and the id is in the id-set. */
  lemma SavedSetKey(t: EntityType, st: Store, r: Record, newId: string, dump: Value -> string, name: string)
    requires Saveable(t, r, newId)
    requires !HoldsOtherThanSet(st, IdsKey(t.classKey))
    requires name in SavedComplex(t) && t.attrTypes[name] == SetType
    requires Get(r, name).RSet? && Get(r, name).members != {}
    ensures var s := Save(t, st, r, newId, dump).store;
      var ck := ComplexKey(t.classKey, SaveId(r, newId), name);
      && SaveId(r, newId) in Ids(s, t)
      && ck in s && s[ck] == SetOf(Get(r, name).members)
  {
    var s := Save(t, st, r, newId, dump).store;
    var ck := ComplexKey(t.classKey, SaveId(r, newId), name);
    var v := Get(r, name);
    SaveAddsId(t, st, r, newId, dump);
    SaveLeavesComplexKey(t, st, r, newId, dump, name);
    AcceptsByType(SetType, v);
    PopulatedSet(s, ck, t.attrTypes[name], v);
  }

  /** A saved record whose set attribute `name` holds every value is found
      by the scan, under the key of that attribute. */
  lemma SaveThenFindBySetIntersection(t: EntityType, st: Store, r: Record, newId: string, dump: Value -> string,
                                      name: string, values: seq<string>, hex: string)
    requires Saveable(t, r, newId) && SaveId(r, newId) != []
    requires !HoldsOtherThanSet(st, IdsKey(t.classKey))
    requires name in SavedComplex(t) && t.attrTypes[name] == SetType
    requires Get(r, name).RSet? && ValueSet(values) <= Get(r, name).members
    requires values != [] && ColonFree(t.classKey) && IsHexId(hex)
    requires TempKey(t.classKey, hex) !in Save(t, st, r, newId, dump).store
    ensures var res := FindBySetIntersection(t, Save(t, st, r, newId, dump).store, name, values, hex, dump).0;
      var ck := ComplexKey(t.classKey, SaveId(r, newId), name);
      res.WrongKind? || (res.Matched? && ck in res.found && res.found[ck].Some?)
  {
    assert values[0] in ValueSet(values);
    assert values[0] in Get(r, name).members;
    SavedSetKey(t, st, r, newId, dump, name);
    assert ColonFree(name);
    ScanFindsSuperset(t, Save(t, st, r, newId, dump).store, name, values, hex, dump, SaveId(r, newId));
  }

  /** A class filter with one constraint on an indexed attribute finds what
      `find_by` finds for that attribute and value. */
  lemma FilterMatchesFindBy(st: Store, t: EntityType, att: string, v: Value, dump: Value -> string)
    requires IsIndexed(t, att) && (v.Str? || v.Sym? || v.Bool?)
    ensures Filters.FilterAll(st, Filters.ClassFilter(t, [(att, v)]), dump) == FindBy(st, t, att, v, dump)
  {
    var f := Filters.ClassFilter(t, [(att, v)]);
    var k := IndexKeyFor(t.classKey, att, v).value;
    assert Filters.StepKeys(t, [(att, v)]) == [k];
    forall id ensures Filters.Satisfies(st, f, id) <==> id in Members(st, k) {
      assert f.steps[0][0] == (att, v);
    }
  }
}

=== FILE: records.dfy ===
/** One record of a record class: attribute writes with dirty tracking,
    `load`/`refresh`, `save` and `destroy`. A `save` or a `destroy` is one
    MULTI/EXEC batch, so each is a single transition of the store. */
module Records {
  import opened Ruby
  import opened RedisStore
  import opened Keys
  import opened Schema
  import opened Validation
  import opened Index

  /** A record: its attribute values, the value each attribute had before
      its first change since the last save or refresh, and the changes the
      last save committed. */
  datatype Record = Record(
    attrs: map<string, Value>,
    changedFrom: map<string, Value>,
    previousChanges: map<string, (Value, Value)>)

  /** The attribute reader. */
  function Get(r: Record, a: string): Value {
    Lookup(r.attrs, a)
  }

  /** `changes`: each changed attribute's original and current value. */
  function Changes(r: Record): map<string, (Value, Value)> {
    map a | a in r.changedFrom :: (r.changedFrom[a], Get(r, a))
  }

  /** The record the constructor starts from. */
  function NewRecord(): Record {
    Record(map[], map[], map[])
  }

  /** The record's id, once one has been assigned. */
  function IdOf(r: Record): Option<string> {
    match Get(r, "id")
    case Str(s) => Some(s)
    case _ => None
  }

  /** `attribute_will_change!`: keeps the value from before the first change. */
  function WillChange(r: Record, a: string): Record {
    if a in r.changedFrom then r else r.(changedFrom := r.changedFrom[a := Get(r, a)])
  }

  datatype Assignment =
    | Assigned(record: Record)
    | NoSuchAttribute   // no writer was defined for the attribute
    | IdReassigned      // "Cannot reassign id"

  /** The attribute writer `att = v`. Writing the current value does nothing;
      `id` takes the text of the value and can be written only while nil. */
  function Assign(t: EntityType, r: Record, att: string, v: Value): (res: Assignment)
    requires att == "id" ==> HasText(v)
    ensures res.NoSuchAttribute? <==> att !in t.attrTypes
    ensures att in t.attrTypes && v == Get(r, att) ==> res == Assigned(r)
    ensures res.IdReassigned? <==> att == "id" && att in t.attrTypes && v != Get(r, "id") && Get(r, "id") != Nil
    ensures res.Assigned? ==> forall b :: b != att ==> Get(res.record, b) == Get(r, b)
    ensures res.Assigned? && att != "id" ==> Get(res.record, att) == v
    ensures res.Assigned? && att == "id" && v != Get(r, "id") ==> Get(res.record, "id") == Str(Text(v))
    ensures res.Assigned? && Get(r, "id") != Nil ==> Get(res.record, "id") == Get(r, "id")
    ensures res.Assigned? && v != Get(r, att) ==>
      && att in Changes(res.record)
      && Changes(res.record)[att].0 == (if att in r.changedFrom then r.changedFrom[att] else Get(r, att))
      && Changes(res.record)[att].1 == Get(res.record, att)
  {
    if att !in t.attrTypes then NoSuchAttribute
    else if v == Get(r, att) then Assigned(r)
    else if att == "id" then
      if Get(r, "id") != Nil then IdReassigned
      else
        var r1 := WillChange(r, "id");
        Assigned(r1.(attrs := r1.attrs["id" := Str(Text(v))]))
    else
      var r1 := WillChange(r, att);
      Assigned(r1.(attrs := r1.attrs[att := v]))
  }

  /** `persisted?`: the record has an id and the id is in the type's id-set. */
  predicate Persisted(st: Store, t: EntityType, r: Record) {
    IdOf(r).Some? && IdOf(r).value in Members(st, IdsKey(t.classKey))
  }

  /** The attributes held under keys of their own. */
  function ComplexAttributes(t: EntityType): set<string> {
    set a | a in t.attrTypes && IsComplex(t.attrTypes[a])
  }

  /** How `refresh` reads a stored field back, by declared type. A json_string
      field is passed through the serializer again rather than parsed. */
  function DecodeField(ty: AttrType, text: string, dump: Value -> string): Value {
    match ty
    case StringType => Str(text)
    case IntegerType => Int(ToI(text))
    case TimestampType => Int(ToI(text))
    case BooleanType => Bool(Downcase(text) == "true")
    case JsonStringType => if BlankText(text) then Nil else Str(dump(Str(text)))
    case _ => Nil
  }

  /** How `refresh` reads a complex attribute back from its own key. */
  function DecodeComplex(st: Store, k: string, ty: AttrType): Value {
    match ty
    case ListType => Array(LRange(st, k))
    case SetType => RSet(Members(st, k))
    case HashType => Hash(HGetAll(st, k))
    case _ => Nil
  }

  /** `load(id)`: a new record given `id` and then refreshed: the id, every
      stored field of a declared attribute, and every complex attribute. */
  function Load(t: EntityType, st: Store, id: string, dump: Value -> string): (r: Record)
    ensures r.changedFrom == map[] && r.previousChanges == map[]
    ensures forall a :: a in r.attrs <==>
      a == "id" || (a in HGetAll(st, AttrsKey(t.classKey, id)) && a in t.attrTypes) || a in ComplexAttributes(t)
    ensures "id" !in HGetAll(st, AttrsKey(t.classKey, id)) && "id" !in ComplexAttributes(t) ==> IdOf(r) == Some(id)
  {
    var fields := HGetAll(st, AttrsKey(t.classKey, id));
    var simple := map f | f in fields && f in t.attrTypes :: DecodeField(t.attrTypes[f], fields[f], dump);
    var complex := map a | a in ComplexAttributes(t) :: DecodeComplex(st, ComplexKey(t.classKey, id, a), t.attrTypes[a]);
    assert "id" !in fields && "id" !in ComplexAttributes(t) ==> "id" !in simple && "id" !in complex;
    Record(map["id" := Str(id)] + simple + complex, map[], map[])
  }

  /** What `refresh` leaves: the reloaded record, or, when it raises, the
      record as it stands at the raise. */
  datatype RefreshOutcome = Refreshed(record: Record) | Raised(left: Record)

  /** `refresh`: drops every pending and previous change, resets the
      attributes to the id alone, and reloads the record by its id. A record
      that was never given an id has no storage handles, so the reload
      raises after the reset. */
  function Refresh(t: EntityType, st: Store, r: Record, dump: Value -> string): (res: RefreshOutcome)
    ensures res.Raised? <==> IdOf(r).None?
    ensures res.Raised? ==> res.left.attrs.Keys == {"id"} && Get(res.left, "id") == Get(r, "id")
    ensures res.Raised? ==> res.left.changedFrom == map[] && res.left.previousChanges == map[]
    ensures res.Refreshed? ==> res.record.changedFrom == map[] && res.record.previousChanges == map[]
    ensures res.Refreshed? ==> forall a :: a in ComplexAttributes(t) ==> a in res.record.attrs
    ensures res.Refreshed? ==> forall a :: a in ComplexAttributes(t) ==>
      Get(res.record, a) == DecodeComplex(st, ComplexKey(t.classKey, IdOf(r).value, a), t.attrTypes[a])
    ensures res.Refreshed? ==> forall a :: a != "id" && a in t.attrTypes && !IsComplex(t.attrTypes[a]) ==>
      var h := HGetAll(st, AttrsKey(t.classKey, IdOf(r).value));
      Get(res.record, a) == if a in h then DecodeField(t.attrTypes[a], h[a], dump) else Nil
  {
    match IdOf(r)
    case None => Raised(Record(map["id" := Get(r, "id")], map[], map[]))
    case Some(id) => Refreshed(Load(t, st, id, dump))
  }

  // ---------------------------------------------------------------- save

  predicate IsHexId(s: string) {
    |s| == 32 && forall i :: 0 <= i < |s| ==> ('0' <= s[i] <= '9' || 'a' <= s[i] <= 'f')
  }

  /** Some enumeration of a set: the order in which Ruby yields the members
      of a Set is not part of this model. */
  ghost function SomeOrder(s: set<string>): (xs: seq<string>)
    ensures |xs| == |s|
    ensures forall x :: x in xs <==> x in s
    decreases |s|
  {
    if s == {} then [] else var x :| x in s; [x] + SomeOrder(s - {x})
  }

  /** The elements `rpush(key, *value)` sends for an Enumerable value: an
      Array in order, a Set's members, a Hash's keys and values pairwise. */
  ghost function ListItems(v: Value): (xs: seq<string>)
    requires v.Array? || v.RSet? || v.Hash?
    ensures v.Array? ==> xs == v.items
    ensures v.RSet? ==> forall x :: x in xs <==> x in v.members
    ensures xs == [] <==> Blank(v)
  {
    match v
    case Array(items) => items
    case RSet(m) => SomeOrder(m)
    case Hash(e) => Pairs(SomeOrder(e.Keys), e)
  }

  function Pairs(ks: seq<string>, e: map<string, string>): (xs: seq<string>)
    requires forall i :: 0 <= i < |ks| ==> ks[i] in e
    ensures |xs| == 2 * |ks|
  {
    if ks == [] then [] else [ks[0], e[ks[0]]] + Pairs(ks[1..], e)
  }

  /** Which attribute types save writes as a field of the attribute hash.
      Timestamps and ids are not written at all. */
  predicate WrittenAsField(ty: AttrType) {
    ty == StringType || ty == IntegerType || ty == BooleanType || ty == JsonStringType
  }

  /** How save writes one simple attribute: its text, or no field at all when
      the value is blank; a boolean always as "true" or "false". */
  function EncodeField(ty: AttrType, v: Value, dump: Value -> string): Option<string>
    requires WrittenAsField(ty)
    requires v == Nil || Accepts(ty, v)
  {
    AcceptsByType(ty, v);
    if ty == BooleanType then Some(if Truthy(v) then "true" else "false")
    else if Blank(v) then None
    else if ty == JsonStringType then Some(dump(v))
    else Some(Text(v))
  }

  /** The field map of the bulk write: every declared attribute but `id`
      whose type is written as a field. */
  function SimpleFields(t: EntityType, r: Record, dump: Value -> string): map<string, Option<string>>
    requires Valid(t.attrTypes, r.attrs)
  {
    map a | a in t.attrTypes && a != "id" && WrittenAsField(t.attrTypes[a]) ::
      EncodeField(t.attrTypes[a], Get(r, a), dump)
  }

  /** The complex attributes save rewrites. */
  function SavedComplex(t: EntityType): set<string> {
    ComplexAttributes(t) - {"id"}
  }

  /** The contents a complex attribute's key is repopulated with. */
  ghost function Populated(ty: AttrType, v: Value): Entry
    requires IsComplex(ty) && Accepts(ty, v) && !Blank(v)
  {
    AcceptsByType(ty, v);
    if ty == ListType then ListOf(ListItems(v))
    else if ty == SetType then SetOf(v.members)
    else HashOf(v.entries)
  }

  lemma ComplexKeysInjective(cls: string, id: string)
    ensures forall a, b :: ComplexKey(cls, id, a) == ComplexKey(cls, id, b) ==> a == b
  {
    forall a, b ensures ComplexKey(cls, id, a) == ComplexKey(cls, id, b) ==> a == b {
      ComplexKeysDistinct(cls, id, a, b);
    }
  }

  /** The keys of the complex attributes save rewrites. */
  function ComplexKeys(t: EntityType, id: string): set<string> {
    set a | a in SavedComplex(t) :: ComplexKey(t.classKey, id, a)
  }

  /** The store with the given keys deleted. */
  function WithoutKeys(st: Store, keys: set<string>): (res: Store)
    ensures forall k :: k !in keys ==> Agree(st, res, k)
    ensures forall k :: k in keys ==> k !in res
  {
    map k | k in st && k !in keys :: st[k]
  }

  /** The complex attributes' keys filled from their non-blank values. */
  ghost function Refilled(t: EntityType, id: string, r: Record): (res: Store)
    requires Valid(t.attrTypes, r.attrs)
    ensures res.Keys <= ComplexKeys(t, id)
    ensures forall a :: a in SavedComplex(t) && Blank(Get(r, a)) ==> ComplexKey(t.classKey, id, a) !in res
    ensures forall a :: a in SavedComplex(t) && !Blank(Get(r, a)) ==>
      ComplexKey(t.classKey, id, a) in res && res[ComplexKey(t.classKey, id, a)] == Populated(t.attrTypes[a], Get(r, a))
  {
    ComplexKeysInjective(t.classKey, id);
    var res := map a | a in SavedComplex(t) && !Blank(Get(r, a)) ::
      ComplexKey(t.classKey, id, a) := Populated(t.attrTypes[a], Get(r, a));
    assert res.Keys <= ComplexKeys(t, id) by {
      forall k | k in res ensures k in ComplexKeys(t, id) {
        var a :| a in SavedComplex(t) && !Blank(Get(r, a)) && k == ComplexKey(t.classKey, id, a);
      }
    }
    res
  }

  /** Each complex attribute's key is deleted and then refilled from the new
      value when that value is not blank: a full replace. */
  ghost function ReplaceComplex(st: Store, t: EntityType, id: string, r: Record): (res: Store)
    requires Valid(t.attrTypes, r.attrs)
    ensures forall k :: k !in ComplexKeys(t, id) ==> Agree(st, res, k)
    ensures forall a :: a in SavedComplex(t) && Blank(Get(r, a)) ==> ComplexKey(t.classKey, id, a) !in res
    ensures forall a :: a in SavedComplex(t) && !Blank(Get(r, a)) ==>
      ComplexKey(t.classKey, id, a) in res && res[ComplexKey(t.classKey, id, a)] == Populated(t.attrTypes[a], Get(r, a))
  {
    WithoutKeys(st, ComplexKeys(t, id)) + Refilled(t, id, r)
  }

  /** The changed attributes that are indexed. */
  function IndexedChanges(t: EntityType, r: Record): set<string> {
    set a | a in r.changedFrom && IsIndexed(t, a)
  }

  /** The entries an indexed change leaves: those of the old values. */
  function OldIndexKeys(t: EntityType, r: Record): set<string> {
    set a | a in IndexedChanges(t, r) && IndexKeyFor(t.classKey, a, r.changedFrom[a]).Some? ::
      IndexKeyFor(t.classKey, a, r.changedFrom[a]).value
  }

  /** The entries an indexed change joins: those of the new values. */
  function NewIndexKeys(t: EntityType, r: Record): set<string> {
    set a | a in IndexedChanges(t, r) && IndexKeyFor(t.classKey, a, Get(r, a)).Some? ::
      IndexKeyFor(t.classKey, a, Get(r, a)).value
  }

  /** The commands of the save batch, in order: leave the old index
      entries, write the simple attributes, replace the complex ones, join
      the new index entries, and add the id to the type's id-set. */
  ghost function SaveBatch(t: EntityType, st: Store, r: Record, id: string, dump: Value -> string): Store
    requires Valid(t.attrTypes, r.attrs)
  {
    var s1 := SRemEach(st, OldIndexKeys(t, r), id);
    var s2 := WriteFields(s1, AttrsKey(t.classKey, id), SimpleFields(t, r, dump));
    var s3 := ReplaceComplex(s2, t, id, r);
    var s4 := SAddEach(s3, NewIndexKeys(t, r), id);
    SAdd(s4, IdsKey(t.classKey), {id})
  }

  /** The id a save stores the record under: its own, or the drawn one. */
  function SaveId(r: Record, newId: string): string {
    match IdOf(r)
    case Some(id) => id
    case None => newId
  }

  /** `self.id ||= SecureRandom.hex(16)` on a record that passed validation. */
  function WithId(t: EntityType, r: Record, newId: string): (r1: Record)
    requires WellFormed(t) && Valid(t.attrTypes, r.attrs)
    ensures Get(r, "id") != Nil ==> r1 == r
    ensures IdOf(r1) == Some(SaveId(r, newId))
    ensures Get(r, "id") == Nil ==> IdOf(r1) == Some(newId)
    ensures forall a :: a != "id" ==> Get(r1, a) == Get(r, a)
    ensures forall a :: a != "id" ==> (a in r1.changedFrom <==> a in r.changedFrom)
    ensures forall a :: a != "id" && a in r.changedFrom ==> r1.changedFrom[a] == r.changedFrom[a]
    ensures Valid(t.attrTypes, r1.attrs)
  {
    assert !Violates(t.attrTypes, r.attrs, "id");
    AcceptsByType(StringType, Get(r, "id"));
    if Truthy(Get(r, "id")) then r
    else
      var a := Assign(t, r, "id", Str(newId));
      assert a.Assigned?;
      AcceptsByType(StringType, Str(newId));
      assert forall b :: b in t.attrTypes && b != "id" ==> !Violates(t.attrTypes, r.attrs, b);
      a.record
  }

  /** The changes pending after `id ||= ...`: those of every other
      attribute as they were, and, for a record without an id, `id` from its
      value before the first change to the drawn id. */
  lemma WithIdChanges(t: EntityType, r: Record, newId: string)
    requires WellFormed(t) && Valid(t.attrTypes, r.attrs)
    ensures var c := Changes(WithId(t, r, newId));
      && (forall a :: a != "id" ==> (a in c <==> a in Changes(r)))
      && (forall a :: a != "id" && a in Changes(r) ==> c[a] == Changes(r)[a])
      && (Get(r, "id") == Nil ==> "id" in c && c["id"] == ((if "id" in r.changedFrom then r.changedFrom["id"] else Nil), Str(newId)))
  {
    if Get(r, "id") == Nil {
      assert !Violates(t.attrTypes, r.attrs, "id");
      AcceptsByType(StringType, Str(newId));
      var r0 := WillChange(r, "id");
      assert WithId(t, r, newId) == r0.(attrs := r0.attrs["id" := Str(Text(Str(newId)))]);
    }
  }

  /** The record a successful save leaves: its attributes with the id
      given, no pending changes, and the changes it had pending as its
      previous changes. */
  function Committed(t: EntityType, r: Record, newId: string): (c: Record)
    requires WellFormed(t) && Valid(t.attrTypes, r.attrs)
    ensures IdOf(c) == Some(SaveId(r, newId))
    ensures forall a :: a != "id" ==> Get(c, a) == Get(r, a)
    ensures c.changedFrom == map[]
    ensures Get(r, "id") != Nil ==> c.previousChanges == Changes(r)
    ensures forall a :: a != "id" ==> (a in c.previousChanges <==> a in Changes(r))
    ensures forall a :: a != "id" && a in Changes(r) ==> c.previousChanges[a] == Changes(r)[a]
    ensures Get(r, "id") == Nil ==>
      && "id" in c.previousChanges
      && c.previousChanges["id"] == ((if "id" in r.changedFrom then r.changedFrom["id"] else Nil), Str(newId))
  {
    var r1 := WithId(t, r, newId);
    WithIdChanges(t, r, newId);
    Record(r1.attrs, map[], Changes(r1))
  }

  /** A record that fails validation has at least one error. */
  lemma InvalidHasErrors(t: EntityType, r: Record)
    requires !Valid(t.attrTypes, r.attrs)
    ensures TypeErrors(t.attrTypes, r.attrs) != map[]
  {
    assert exists a :: a in t.attrTypes && Violates(t.attrTypes, r.attrs, a);
    var a :| a in t.attrTypes && Violates(t.attrTypes, r.attrs, a);
    assert a in TypeErrors(t.attrTypes, r.attrs);
  }

  datatype SaveOutcome =
    | Saved(store: Store, record: Record)
    | Invalid(errors: map<string, seq<RubyClass>>)

  /** `save`: validation first, and nothing is written when it fails;
      otherwise the batch runs and the record's changes become its previous
      changes. `newId` stands for the random id drawn when none is set. */
  ghost function Save(t: EntityType, st: Store, r: Record, newId: string, dump: Value -> string): (res: SaveOutcome)
    requires WellFormed(t) && IsHexId(newId)
    ensures res.Invalid? <==> !Valid(t.attrTypes, r.attrs)
    ensures res.Invalid? ==> res.errors == TypeErrors(t.attrTypes, r.attrs) && res.errors != map[]
    ensures res.Saved? ==> IdOf(res.record) == Some(SaveId(r, newId))
    ensures res.Saved? && Get(r, "id") == Nil ==> IdOf(res.record) == Some(newId)
    ensures res.Saved? ==> forall a :: a != "id" ==> Get(res.record, a) == Get(r, a)
    ensures res.Saved? ==> res.record.changedFrom == map[]
    ensures res.Saved? && Get(r, "id") != Nil ==> res.record.previousChanges == Changes(r)
    ensures res.Saved? ==> forall a :: a != "id" ==> (a in res.record.previousChanges <==> a in Changes(r))
    ensures res.Saved? ==> forall a :: a != "id" && a in Changes(r) ==> res.record.previousChanges[a] == Changes(r)[a]
    ensures res.Saved? && Get(r, "id") == Nil ==>
      && "id" in res.record.previousChanges
      && res.record.previousChanges["id"] == ((if "id" in r.changedFrom then r.changedFrom["id"] else Nil), Str(newId))
  {
    if !Valid(t.attrTypes, r.attrs) then
      InvalidHasErrors(t, r);
      Invalid(TypeErrors(t.attrTypes, r.attrs))
    else
      var r1 := WithId(t, r, newId);
      Saved(SaveBatch(t, st, r1, IdOf(r1).value, dump), Committed(t, r, newId))
  }

  // ------------------------------------------------------------- destroy

  /** The index entries of the values the record currently holds. */
  function HeldIndexKeys(t: EntityType, r: Record): set<string> {
    set a | a in r.attrs && a != "id" && IsIndexed(t, a) && IndexKeyFor(t.classKey, a, r.attrs[a]).Some? ::
      IndexKeyFor(t.classKey, a, r.attrs[a]).value
  }

  /** `destroy`: one batch removing the id from the type's id-set and from
      the index entries of the values it holds, and deleting the attribute
      hash. The keys of complex attributes are not deleted. A record that
      was never given an id has no attribute hash: destroying it raises
      after MULTI and before EXEC: the queued commands are left pending on
      the connection, and this call changes no key. */
  function Destroy(t: EntityType, st: Store, r: Record): (res: Option<Store>)
    ensures res.None? <==> IdOf(r).None?
    ensures res.Some? ==> IdOf(r).value !in Members(res.value, IdsKey(t.classKey))
    ensures res.Some? ==> AttrsKey(t.classKey, IdOf(r).value) !in res.value
    ensures res.Some? ==> forall k :: k in HeldIndexKeys(t, r) ==> IdOf(r).value !in Members(res.value, k)
    ensures res.Some? && ColonFree(IdOf(r).value) ==>
      forall k :: k in HeldIndexKeys(t, r) ==> Members(res.value, k) == Members(st, k) - {IdOf(r).value}
  {
    match IdOf(r)
    case None => None
    case Some(id) =>
      var s1 := SRem(st, IdsKey(t.classKey), {id});
      var s2 := SRemEach(s1, HeldIndexKeys(t, r), id);
      HeldEntriesLoseOnlyId(t, st, r, id);
      Some(Del(s2, AttrsKey(t.classKey, id)))
  }

  /** Destroy's index entries keep every other record's id: an entry is
      neither the id-set nor, for an id without ':', the attribute hash. */
  lemma HeldEntriesLoseOnlyId(t: EntityType, st: Store, r: Record, id: string)
    ensures var s2 := SRemEach(SRem(st, IdsKey(t.classKey), {id}), HeldIndexKeys(t, r), id);
      ColonFree(id) ==> forall k :: k in HeldIndexKeys(t, r) ==>
        Members(Del(s2, AttrsKey(t.classKey, id)), k) == Members(st, k) - {id}
  {
    var cls := t.classKey;
    var s1 := SRem(st, IdsKey(cls), {id});
    var s2 := SRemEach(s1, HeldIndexKeys(t, r), id);
    if ColonFree(id) {
      forall k | k in HeldIndexKeys(t, r)
        ensures Members(Del(s2, AttrsKey(cls, id)), k) == Members(st, k) - {id}
      {
        var a :| a in r.attrs && a != "id" && IsIndexed(t, a) && IndexKeyFor(cls, a, r.attrs[a]).Some?
          && k == IndexKeyFor(cls, a, r.attrs[a]).value;
        IndexKeyNotIdsKey(cls, a, Text(r.attrs[a]));
        IndexKeyNotRecordKey(cls, a, Text(r.attrs[a]), id, "");
        Untouched(st, s1, IdsKey(cls), k);
        Untouched(s2, Del(s2, AttrsKey(cls, id)), AttrsKey(cls, id), k);
      }
    }
  }
}

=== FILE: redis_store.dfy ===
/** The Redis keyspace as an immutable value: each key holds a set, a hash
    (field-map) or a list of strings. Every command is a pure function from
    store to store. Redis drops a key whose collection becomes empty, and a
    write aimed at a key of another kind is modelled as refused, leaving the
    store as it was (Redis replies WRONGTYPE there), and a read of such a key
    sees an empty collection. */
module RedisStore {
  import opened Ruby

  datatype Entry =
    | SetOf(members: set<string>)
    | HashOf(fields: map<string, string>)
    | ListOf(items: seq<string>)

  type Store = map<string, Entry>

  predicate NonEmpty(e: Entry) {
    match e
    case SetOf(m) => m != {}
    case HashOf(f) => f != map[]
    case ListOf(xs) => xs != []
  }

  /** The keyspace never holds an empty collection. */
  ghost predicate NoEmptyEntries(st: Store) {
    forall k :: k in st ==> NonEmpty(st[k])
  }

  /** True when `k` holds something other than a set. */
  predicate HoldsOtherThanSet(st: Store, k: string) {
    k in st && !st[k].SetOf?
  }

  /** Two stores hold the same thing at `k`. */
  predicate Agree(a: Store, b: Store, k: string) {
    (k in a <==> k in b) && (k in a ==> a[k] == b[k])
  }

  /** A command confined to `k0` leaves every other key as it was. */
  lemma Untouched(st: Store, r: Store, k0: string, k: string)
    requires r - {k0} == st - {k0} && k != k0
    ensures Agree(st, r, k)
  {
    assert k in r <==> k in r - {k0};
    assert k in st <==> k in st - {k0};
    if k in r {
      assert r[k] == (r - {k0})[k] == (st - {k0})[k] == st[k];
    }
  }

  /** SMEMBERS; a missing key reads as the empty set. */
  function Members(st: Store, k: string): set<string> {
    if k in st && st[k].SetOf? then st[k].members else {}
  }

  /** SCARD */
  function Card(st: Store, k: string): nat {
    |Members(st, k)|
  }

  /** HGETALL; a missing key reads as the empty hash. */
  function HGetAll(st: Store, k: string): map<string, string> {
    if k in st && st[k].HashOf? then st[k].fields else map[]
  }

  /** LRANGE k 0 -1; a missing key reads as the empty list. */
  function LRange(st: Store, k: string): seq<string> {
    if k in st && st[k].ListOf? then st[k].items else []
  }

  /** DEL */
  function Del(st: Store, k: string): (r: Store)
    ensures k !in r
    ensures r - {k} == st - {k}
  {
    st - {k}
  }

  /** SADD k xs */
  function SAdd(st: Store, k: string, xs: set<string>): (r: Store)
    ensures r - {k} == st - {k}
    ensures HoldsOtherThanSet(st, k) ==> r == st
    ensures !HoldsOtherThanSet(st, k) ==> Members(r, k) == Members(st, k) + xs
    ensures forall k' :: HoldsOtherThanSet(r, k') <==> HoldsOtherThanSet(st, k')
    ensures NoEmptyEntries(st) ==> NoEmptyEntries(r)
  {
    if HoldsOtherThanSet(st, k) then st
    else
      var m := Members(st, k) + xs;
      if m == {} then st else st[k := SetOf(m)]
  }

  /** SREM k xs */
  function SRem(st: Store, k: string, xs: set<string>): (r: Store)
    ensures r - {k} == st - {k}
    ensures HoldsOtherThanSet(st, k) ==> r == st
    ensures Members(r, k) == Members(st, k) - xs
    ensures forall k' :: HoldsOtherThanSet(r, k') <==> HoldsOtherThanSet(st, k')
    ensures NoEmptyEntries(st) ==> NoEmptyEntries(r)
  {
    if k in st && st[k].SetOf? then
      var m := st[k].members - xs;
      if m == {} then st - {k} else st[k := SetOf(m)]
    else st
  }

  /** SREM of one member from each of several keys, as the commands of one
      batch; removals from distinct keys commute, so their order is immaterial. */
  function SRemEach(st: Store, keys: set<string>, x: string): (r: Store)
    ensures forall k :: Members(r, k) == if k in keys then Members(st, k) - {x} else Members(st, k)
    ensures forall k :: k !in keys || HoldsOtherThanSet(st, k) ==> (k in r <==> k in st) && (k in r ==> r[k] == st[k])
    ensures forall k :: HoldsOtherThanSet(r, k) <==> HoldsOtherThanSet(st, k)
    ensures NoEmptyEntries(st) ==> NoEmptyEntries(r)
  {
    map k | k in st && !(k in keys && st[k].SetOf? && st[k].members <= {x}) ::
      if k in keys && st[k].SetOf? then SetOf(st[k].members - {x}) else st[k]
  }

  /** SADD of one member to each of several keys, as the commands of one batch. */
  function SAddEach(st: Store, keys: set<string>, x: string): (r: Store)
    ensures forall k :: !HoldsOtherThanSet(st, k) ==> Members(r, k) == if k in keys then Members(st, k) + {x} else Members(st, k)
    ensures forall k :: k !in keys || HoldsOtherThanSet(st, k) ==> (k in r <==> k in st) && (k in r ==> r[k] == st[k])
    ensures forall k :: HoldsOtherThanSet(r, k) <==> HoldsOtherThanSet(st, k)
    ensures NoEmptyEntries(st) ==> NoEmptyEntries(r)
  {
    map k | k in st.Keys + keys ::
      if k in keys && !HoldsOtherThanSet(st, k) then SetOf(Members(st, k) + {x}) else st[k]
  }

  /** HMSET of the fields given a value and HDEL of the fields given none:
      the bulk write of a record's simple attributes. A write with no fields
      at all is not sent. */
  function WriteFields(st: Store, k: string, fields: map<string, Option<string>>): (r: Store)
    ensures r - {k} == st - {k}
    ensures (k in st && !st[k].HashOf?) || fields == map[] ==> r == st
    ensures !(k in st && !st[k].HashOf?) ==>
      forall f :: f in fields ==>
        if fields[f].Some? then f in HGetAll(r, k) && HGetAll(r, k)[f] == fields[f].value
        else f !in HGetAll(r, k)
    ensures forall f :: f !in fields ==> (f in HGetAll(r, k) <==> f in HGetAll(st, k))
    ensures forall f :: f !in fields && f in HGetAll(st, k) ==> HGetAll(r, k)[f] == HGetAll(st, k)[f]
    ensures NoEmptyEntries(st) ==> NoEmptyEntries(r)
  {
    if (k in st && !st[k].HashOf?) || fields == map[] then st
    else
      var prior := HGetAll(st, k);
      var m := map f | f in prior.Keys + fields.Keys && !(f in fields && fields[f].None?) ::
        if f in fields then fields[f].value else prior[f];
      if m == map[] then st - {k} else st[k := HashOf(m)]
  }

  /** RPUSH k xs */
  function RPush(st: Store, k: string, xs: seq<string>): (r: Store)
    ensures r - {k} == st - {k}
    ensures !(k in st && !st[k].ListOf?) ==> LRange(r, k) == LRange(st, k) + xs
    ensures NoEmptyEntries(st) ==> NoEmptyEntries(r)
  {
    if (k in st && !st[k].ListOf?) || xs == [] then st
    else st[k := ListOf(LRange(st, k) + xs)]
  }

  /** SINTER of one or more keys. */
  function Inter(st: Store, keys: seq<string>): (r: set<string>)
    requires |keys| > 0
    ensures forall x :: x in r <==> forall i :: 0 <= i < |keys| ==> x in Members(st, keys[i])
  {
    if |keys| == 1 then Members(st, keys[0])
    else Members(st, keys[0]) * Inter(st, keys[1..])
  }

  /** SDIFF a b */
  function Diff(st: Store, a: string, b: string): (r: set<string>)
    ensures r == {} <==> Members(st, a) <= Members(st, b)
  {
    var d := Members(st, a) - Members(st, b);
    assert Members(st, a) <= Members(st, b) ==> d == {} by {
      if Members(st, a) <= Members(st, b) {
        assert forall x :: x !in d;
      }
    }
    assert d == {} ==> Members(st, a) <= Members(st, b) by {
      if d == {} {
        forall x | x in Members(st, a) ensures x in Members(st, b) {
          assert x !in d;
        }
      }
    }
    d
  }

  /** SINTERSTORE dest keys: the destination holds the intersection, or is
      removed when the intersection is empty. */
  function InterStore(st: Store, dest: string, keys: seq<string>): (r: Store)
    requires |keys| > 0
    ensures r - {dest} == st - {dest}
    ensures Members(r, dest) == Inter(st, keys)
    ensures dest in r <==> Inter(st, keys) != {}
  {
    var m := Inter(st, keys);
    if m == {} then st - {dest} else st[dest := SetOf(m)]
  }
}

=== FILE: ruby.dfy ===
/** The Ruby values the record layer reads and writes, and the few core
    methods (`to_s`, `to_i`, `blank?`, `downcase`, `is_a?`) whose behaviour
    it depends on. */
module Ruby {

  datatype Option<T> = None | Some(value: T)

  /** A Ruby object as the record layer sees it. The elements of arrays,
      sets and hashes are held as text, the form Redis stores them in. */
  datatype Value =
    | Nil
    | Str(s: string)
    | Sym(name: string)
    | Int(i: int)
    | Bool(b: bool)
    | DateTime(text: string)            // a DateTime, carried by its to_s text
    | Array(items: seq<string>)
    | RSet(members: set<string>)
    | Hash(entries: map<string, string>)
    | Other(cls: string, text: string)  // an object of none of the classes above, that is no
                                        // Enumerable and no subclass of String, Integer, Set
                                        // or Hash: class name and to_s text

  /** `hash[key]`: nil for a missing key. */
  function Lookup(m: map<string, Value>, k: string): Value {
    if k in m then m[k] else Nil
  }

  /** The classes and modules that attribute types accept. */
  datatype RubyClass =
    | StringClass | IntegerClass | DateTimeClass | TrueClass | FalseClass
    | Enumerable | SetClass | HashClass

  /** `v.is_a?(c)`: arrays, sets and hashes all include Enumerable. */
  predicate IsA(v: Value, c: RubyClass) {
    match c
    case StringClass => v.Str?
    case IntegerClass => v.Int?
    case DateTimeClass => v.DateTime?
    case TrueClass => v == Bool(true)
    case FalseClass => v == Bool(false)
    case Enumerable => v.Array? || v.RSet? || v.Hash?
    case SetClass => v.RSet?
    case HashClass => v.Hash?
  }

  /** `cs.any? {|c| v.is_a?(c) }` */
  predicate AnyIsA(v: Value, cs: seq<RubyClass>) {
    exists i :: 0 <= i < |cs| && IsA(v, cs[i])
  }

  /** Everything except nil and false is true in a condition. */
  predicate Truthy(v: Value) {
    v != Nil && v != Bool(false)
  }

  /** `[[:space:]]`: the Unicode White_Space characters. */
  predicate IsSpace(c: char) {
    var n := c as int;
    || 0x09 <= n <= 0x0D || n == 0x20 || n == 0x85 || n == 0xA0 || n == 0x1680
    || 0x2000 <= n <= 0x200A || n == 0x2028 || n == 0x2029 || n == 0x202F
    || n == 0x205F || n == 0x3000
  }

  /** C's `isspace`, which `to_i` skips: space, tab, and line feed through
      carriage return. */
  predicate IsAsciiSpace(c: char) {
    c == ' ' || '\t' <= c <= '\r'
  }

  /** `String#blank?`: empty or whitespace only. */
  predicate BlankText(s: string) {
    forall i :: 0 <= i < |s| ==> IsSpace(s[i])
  }

  /** Non-ASCII spaces count as blank too: a no-break space and an
      ideographic space are blank, a letter is not. */
  lemma UnicodeSpacesBlank()
    ensures BlankText([0xA0 as char, 0x3000 as char])
    ensures !BlankText("a")
  {
    assert !IsSpace("a"[0]);
  }

  /** ActiveSupport's `blank?`. */
  predicate Blank(v: Value) {
    match v
    case Nil => true
    case Bool(b) => !b
    case Str(s) => BlankText(s)
    case Sym(n) => n == ""
    case Int(_) => false
    case DateTime(_) => false
    case Array(xs) => xs == []
    case RSet(m) => m == {}
    case Hash(e) => e == map[]
    case Other(_, _) => false
  }

  /** Values whose `to_s` this model renders. A collection's `to_s` is its
      `inspect` text, which for a Set embeds an object address. */
  predicate HasText(v: Value) {
    !(v.Array? || v.RSet? || v.Hash?)
  }

  /** `v.to_s` */
  function Text(v: Value): string
    requires HasText(v)
  {
    match v
    case Nil => ""
    case Str(s) => s
    case Sym(n) => n
    case Int(i) => IntToText(i)
    case Bool(b) => if b then "true" else "false"
    case DateTime(t) => t
    case Other(_, t) => t
  }

  predicate IsDigit(c: char) {
    '0' <= c <= '9'
  }

  function DigitChar(d: nat): (c: char)
    requires d < 10
    ensures IsDigit(c) && c as int - '0' as int == d
  {
    ('0' as int + d) as char
  }

  /** Decimal text of a natural number, most significant digit first. */
  function NatToText(n: nat): (s: string)
    ensures |s| > 0
    ensures forall i :: 0 <= i < |s| ==> IsDigit(s[i])
    decreases n
  {
    if n < 10 then [DigitChar(n)] else NatToText(n / 10) + [DigitChar(n % 10)]
  }

  /** `Integer#to_s` */
  function IntToText(i: int): string {
    if i < 0 then "-" + NatToText(-i) else NatToText(i)
  }

  /** The value of a string of decimal digits. */
  function DigitsValue(s: string): nat
    requires forall i :: 0 <= i < |s| ==> IsDigit(s[i])
    decreases |s|
  {
    if s == [] then 0 else DigitsValue(s[..|s| - 1]) * 10 + DigitValue(s[|s| - 1])
  }

  function DigitValue(c: char): (d: nat)
    requires IsDigit(c)
    ensures d < 10
  {
    c as int - '0' as int
  }

  function SkipSpace(s: string): (t: string)
    ensures |t| <= |s| && t == s[|s| - |t|..]
    ensures t != [] ==> !IsAsciiSpace(t[0])
  {
    if s != [] && IsAsciiSpace(s[0]) then SkipSpace(s[1..]) else s
  }

  /** The digits of the number that starts `s`: a run of digits in which a
      single `_` may separate two digits. */
  function ReadDigits(s: string): (d: string)
    ensures forall i :: 0 <= i < |d| ==> IsDigit(d[i])
    ensures s == [] || !IsDigit(s[0]) ==> d == []
  {
    if s == [] || !IsDigit(s[0]) then []
    else if |s| >= 3 && s[1] == '_' && IsDigit(s[2]) then [s[0]] + ReadDigits(s[2..])
    else [s[0]] + ReadDigits(s[1..])
  }

  /** `String#to_i`: skips leading whitespace, reads an optional sign, an
      optional `0d` radix prefix and the digits that follow, and yields 0
      when there are none. */
  function ToI(s: string): int {
    var t := SkipSpace(s);
    var signed := t != [] && (t[0] == '-' || t[0] == '+');
    var u := if signed then t[1..] else t;
    var w := if |u| >= 2 && u[0] == '0' && (u[1] == 'd' || u[1] == 'D') then u[2..] else u;
    var m: int := DigitsValue(ReadDigits(w));
    if signed && t[0] == '-' then -m else m
  }

  function Lower(c: char): char {
    if 'A' <= c <= 'Z' then (c as int + 32) as char else c
  }

  /** `String#downcase` on ASCII letters. */
  function Downcase(s: string): (d: string)
    ensures |d| == |s|
    ensures forall i :: 0 <= i < |s| ==> d[i] == Lower(s[i])
  {
    if s == [] then [] else [Lower(s[0])] + Downcase(s[1..])
  }

  lemma {:induction false} DigitsValueOfNatText(n: nat)
    ensures DigitsValue(NatToText(n)) == n
    decreases n
  {
    if n >= 10 {
      var a := NatToText(n / 10);
      var s := a + [DigitChar(n % 10)];
      assert s[..|s| - 1] == a;
      DigitsValueOfNatText(n / 10);
    }
  }

  lemma {:induction false} ReadDigitsOfDigits(s: string)
    requires forall i :: 0 <= i < |s| ==> IsDigit(s[i])
    ensures ReadDigits(s) == s
    decreases |s|
  {
    if s != [] {
      ReadDigitsOfDigits(s[1..]);
    }
  }

  /** A `_` between two runs of digits is read past: `"1_000".to_i` is 1000. */
  lemma {:induction false} ReadDigitsSeparated(a: string, b: string)
    requires a != [] && b != []
    requires forall i :: 0 <= i < |a| ==> IsDigit(a[i])
    requires forall i :: 0 <= i < |b| ==> IsDigit(b[i])
    ensures ReadDigits(a + "_" + b) == a + b
    decreases |a|
  {
    if |a| == 1 {
      ReadDigitsSeparatedLast(a[0], b);
      assert a == [a[0]];
    } else {
      var tail := a[1..] + "_" + b;
      var s := a + "_" + b;
      ReadDigitsSeparated(a[1..], b);
      assert s[0] == a[0] && s[1] == a[1] && s[1..] == tail;
      ReadDigitsNext(s);
      assert a + b == [a[0]] + (a[1..] + b);
    }
  }

  lemma ReadDigitsSeparatedLast(c: char, b: string)
    requires IsDigit(c) && b != []
    requires forall i :: 0 <= i < |b| ==> IsDigit(b[i])
    ensures ReadDigits([c] + "_" + b) == [c] + b
  {
    var s := [c] + "_" + b;
    assert s[0] == c && s[1] == '_' && s[2] == b[0];
    ReadDigitsSkip(s);
    assert s[2..] == b;
    ReadDigitsOfDigits(b);
  }

  /** A digit followed by a digit is read, and reading goes on. */
  lemma ReadDigitsNext(s: string)
    requires |s| >= 2 && IsDigit(s[0]) && IsDigit(s[1])
    ensures ReadDigits(s) == [s[0]] + ReadDigits(s[1..])
  {
  }

  /** A digit followed by `_` and a digit is read, and reading goes on past
      the `_`. */
  lemma ReadDigitsSkip(s: string)
    requires |s| >= 3 && IsDigit(s[0]) && s[1] == '_' && IsDigit(s[2])
    ensures ReadDigits(s) == [s[0]] + ReadDigits(s[2..])
  {
  }

  /** `to_i` of a string that starts with a digit and no radix prefix is
      the value of the digits it reads. */
  lemma ToIOfDigitRun(s: string)
    requires s != [] && IsDigit(s[0])
    requires |s| >= 2 ==> s[1] != 'd' && s[1] != 'D'
    ensures ToI(s) == DigitsValue(ReadDigits(s))
  {
    assert !IsAsciiSpace(s[0]) && s[0] != '-' && s[0] != '+';
    assert SkipSpace(s) == s;
  }

  /** `to_i` ignores single `_` separators between digits. */
  lemma ToISeparated(a: string, b: string)
    requires a != [] && b != []
    requires forall i :: 0 <= i < |a| ==> IsDigit(a[i])
    requires forall i :: 0 <= i < |b| ==> IsDigit(b[i])
    ensures ToI(a + "_" + b) == ToI(a + b)
  {
    var s, s2 := a + "_" + b, a + b;
    assert s[0] == a[0] && s2[0] == a[0];
    assert |s| >= 2 && |s2| >= 2;
    if |a| >= 2 {
      assert s[1] == a[1] && s2[1] == a[1];
    } else {
      assert s[1] == '_' && s2[1] == b[0];
    }
    ToIOfDigitRun(s);
    ToIOfDigitRun(s2);
    ReadDigitsSeparated(a, b);
    assert forall i :: 0 <= i < |s2| ==> IsDigit(s2[i]);
    ReadDigitsOfDigits(s2);
  }

  /** `to_i` of a string of digits is its value. */
  lemma ToIOfDigits(d: string)
    requires d != [] && forall i :: 0 <= i < |d| ==> IsDigit(d[i])
    ensures ToI(d) == DigitsValue(d)
  {
    ReadDigitsOfDigits(d);
    assert !IsAsciiSpace(d[0]) && d[0] != '-' && d[0] != '+';
    assert SkipSpace(d) == d;
    assert !(|d| >= 2 && d[0] == '0' && (d[1] == 'd' || d[1] == 'D'));
  }

  /** `to_i` of '-' and a string of digits is minus its value. */
  lemma ToIOfNegated(d: string)
    requires d != [] && forall i :: 0 <= i < |d| ==> IsDigit(d[i])
    ensures ToI("-" + d) == -(DigitsValue(d) as int)
  {
    ReadDigitsOfDigits(d);
    var t := "-" + d;
    assert t[0] == '-' && !IsAsciiSpace(t[0]);
    assert SkipSpace(t) == t;
    assert t[1..] == d;
    assert !(|d| >= 2 && d[0] == '0' && (d[1] == 'd' || d[1] == 'D'));
  }

  /** Reading back the decimal text of an integer gives the integer. */
  lemma IntTextRoundTrip(i: int)
    ensures ToI(IntToText(i)) == i
  {
    var n: nat := if i < 0 then -i else i;
    DigitsValueOfNatText(n);
    if i < 0 {
      ToIOfNegated(NatToText(n));
    } else {
      ToIOfDigits(NatToText(n));
    }
  }
}

=== FILE: save_proofs.dfy ===
/** What a save and a destroy promise about the store they leave behind:
    the id joins the type's id-set, each changed indexed attribute moves
    from its old value's entry to its new one's, nothing outside the
    record's keys changes, and a reload gives back what was saved. */
module SaveProofs {
  import opened Ruby
  import opened RedisStore
  import opened Keys
  import opened Schema
  import opened Validation
  import opened Index
  import opened Records

  /** What every save proof starts from: a well-formed class, a record that
      passes validation, and an id free of ':'. */
  predicate Saveable(t: EntityType, r: Record, newId: string) {
    WellFormed(t) && IsHexId(newId) && Valid(t.attrTypes, r.attrs) && ColonFree(SaveId(r, newId))
  }

  /** Every index entry of the class holds a set, or nothing. */
  ghost predicate IndexEntriesAreSets(st: Store, cls: string) {
    forall att, x :: !HoldsOtherThanSet(st, IndexKey(cls, att, x))
  }

  /** The key holds something other than a hash. */
  predicate HoldsOtherThanHash(st: Store, k: string) {
    k in st && !st[k].HashOf?
  }

  lemma IndexedColonFree(t: EntityType, a: string)
    requires WellFormed(t) && IsIndexed(t, a)
    ensures ColonFree(a)
  {
    var i :| 0 <= i < |t.indexed| && t.indexed[i] == a;
  }

  /** Each key the index steps of a save touch is an entry of a changed,
      indexed attribute. */
  lemma IndexStepKey(t: EntityType, r1: Record, k: string) returns (b: string, y: string)
    requires WellFormed(t)
    requires k in OldIndexKeys(t, r1) || k in NewIndexKeys(t, r1)
    ensures b in IndexedChanges(t, r1) && ColonFree(b) && k == IndexKey(t.classKey, b, y)
  {
    if k in OldIndexKeys(t, r1) {
      b :| b in IndexedChanges(t, r1) && IndexKeyFor(t.classKey, b, r1.changedFrom[b]).Some?
        && k == IndexKeyFor(t.classKey, b, r1.changedFrom[b]).value;
      y := Text(r1.changedFrom[b]);
    } else {
      b :| b in IndexedChanges(t, r1) && IndexKeyFor(t.classKey, b, Get(r1, b)).Some?
        && k == IndexKeyFor(t.classKey, b, Get(r1, b)).value;
      y := Text(Get(r1, b));
    }
    IndexedColonFree(t, b);
  }

  /** The four intermediate stores of the save batch. */
  lemma SaveSteps(t: EntityType, st: Store, r: Record, newId: string, dump: Value -> string)
    returns (r1: Record, s1: Store, s2: Store, s3: Store, s4: Store)
    requires Saveable(t, r, newId)
    ensures r1 == WithId(t, r, newId) && Valid(t.attrTypes, r1.attrs)
    ensures s1 == SRemEach(st, OldIndexKeys(t, r1), SaveId(r, newId))
    ensures s2 == WriteFields(s1, AttrsKey(t.classKey, SaveId(r, newId)), SimpleFields(t, r1, dump))
    ensures s3 == ReplaceComplex(s2, t, SaveId(r, newId), r1)
    ensures s4 == SAddEach(s3, NewIndexKeys(t, r1), SaveId(r, newId))
    ensures Save(t, st, r, newId, dump).Saved?
    ensures Save(t, st, r, newId, dump).store == SAdd(s4, IdsKey(t.classKey), {SaveId(r, newId)})
  {
    var id := SaveId(r, newId);
    r1 := WithId(t, r, newId);
    s1 := SRemEach(st, OldIndexKeys(t, r1), id);
    s2 := WriteFields(s1, AttrsKey(t.classKey, id), SimpleFields(t, r1, dump));
    s3 := ReplaceComplex(s2, t, id, r1);
    s4 := SAddEach(s3, NewIndexKeys(t, r1), id);
    assert Save(t, st, r, newId, dump) == Saved(SaveBatch(t, st, r1, id, dump), Committed(t, r, newId));
  }

  /** Outside the keys the batch names, a save changes nothing. */
  lemma SaveAgreesOutsideFootprint(t: EntityType, st: Store, r: Record, newId: string, dump: Value -> string, k: string)
    requires Saveable(t, r, newId)
    requires k != IdsKey(t.classKey) && k != AttrsKey(t.classKey, SaveId(r, newId))
    requires k !in ComplexKeys(t, SaveId(r, newId))
    requires k !in OldIndexKeys(t, WithId(t, r, newId)) && k !in NewIndexKeys(t, WithId(t, r, newId))
    ensures Agree(st, Save(t, st, r, newId, dump).store, k)
  {
    var r1, s1, s2, s3, s4 := SaveSteps(t, st, r, newId, dump);
    Untouched(s1, s2, AttrsKey(t.classKey, SaveId(r, newId)), k);
    Untouched(s4, Save(t, st, r, newId, dump).store, IdsKey(t.classKey), k);
  }

  /** A save touches no key outside its type's namespace `<class_key>:`. */
  lemma SaveStaysInNamespace(t: EntityType, st: Store, r: Record, newId: string, dump: Value -> string, k: string)
    requires Saveable(t, r, newId)
    requires !InNamespace(t.classKey, k)
    ensures Agree(st, Save(t, st, r, newId, dump).store, k)
  {
    var cls, id, r1 := t.classKey, SaveId(r, newId), WithId(t, r, newId);
    KeysInNamespace(cls, id, "", "");
    forall a | a in SavedComplex(t) ensures ComplexKey(cls, id, a) != k {
      KeysInNamespace(cls, id, a, "");
    }
    forall k' | k' in OldIndexKeys(t, r1) || k' in NewIndexKeys(t, r1) ensures k' != k {
      var b, y := IndexStepKey(t, r1, k');
      KeysInNamespace(cls, id, b, y);
    }
    SaveAgreesOutsideFootprint(t, st, r, newId, dump, k);
  }

  /** After a save the type's id-set is the old one plus the record's id,
      and the record is persisted. */
  lemma SaveAddsId(t: EntityType, st: Store, r: Record, newId: string, dump: Value -> string)
    requires Saveable(t, r, newId)
    requires !HoldsOtherThanSet(st, IdsKey(t.classKey))
    ensures Save(t, st, r, newId, dump).Saved?
    ensures Members(Save(t, st, r, newId, dump).store, IdsKey(t.classKey)) == Members(st, IdsKey(t.classKey)) + {SaveId(r, newId)}
    ensures Persisted(Save(t, st, r, newId, dump).store, t, Save(t, st, r, newId, dump).record)
  {
    var cls, id := t.classKey, SaveId(r, newId);
    var ik := IdsKey(cls);
    var r1, s1, s2, s3, s4 := SaveSteps(t, st, r, newId, dump);
    forall k' | k' in OldIndexKeys(t, r1) || k' in NewIndexKeys(t, r1) ensures k' != ik {
      var b, y := IndexStepKey(t, r1, k');
      IndexKeyNotIdsKey(cls, b, y);
    }
    RecordKeysNotIdsKey(cls, id, "");
    forall a | a in SavedComplex(t) ensures ComplexKey(cls, id, a) != ik {
      RecordKeysNotIdsKey(cls, id, a);
    }
    Untouched(s1, s2, AttrsKey(cls, id), ik);
    assert Agree(st, s4, ik);
  }

  /** A changed indexed attribute's new value's entry gains the id in a
      save, and its old value's entry, when the two differ, loses it; both
      keep every other record's id. */
  lemma SaveMovesIndexEntry(t: EntityType, st: Store, r: Record, newId: string, dump: Value -> string, a: string)
    requires Saveable(t, r, newId)
    requires IndexEntriesAreSets(st, t.classKey)
    requires a != "id" && IsIndexed(t, a) && a in r.changedFrom
    ensures var res := Save(t, st, r, newId, dump);
      && (IndexKeyFor(t.classKey, a, Get(r, a)).Some? ==>
            SaveId(r, newId) in Members(res.store, IndexKeyFor(t.classKey, a, Get(r, a)).value))
      && (IndexKeyFor(t.classKey, a, r.changedFrom[a]).Some? && IndexKeyFor(t.classKey, a, r.changedFrom[a]) != IndexKeyFor(t.classKey, a, Get(r, a)) ==>
            SaveId(r, newId) !in Members(res.store, IndexKeyFor(t.classKey, a, r.changedFrom[a]).value))
      && (IndexKeyFor(t.classKey, a, Get(r, a)).Some? ==>
            var nk := IndexKeyFor(t.classKey, a, Get(r, a)).value;
            Members(res.store, nk) == Members(st, nk) + {SaveId(r, newId)})
      && (IndexKeyFor(t.classKey, a, r.changedFrom[a]).Some? && IndexKeyFor(t.classKey, a, r.changedFrom[a]) != IndexKeyFor(t.classKey, a, Get(r, a)) ==>
            var ok := IndexKeyFor(t.classKey, a, r.changedFrom[a]).value;
            Members(res.store, ok) == Members(st, ok) - {SaveId(r, newId)})
  {
    if IndexKeyFor(t.classKey, a, Get(r, a)).Some? {
      SaveGainsNewEntry(t, st, r, newId, dump, a);
    }
    if IndexKeyFor(t.classKey, a, r.changedFrom[a]).Some? && IndexKeyFor(t.classKey, a, r.changedFrom[a]) != IndexKeyFor(t.classKey, a, Get(r, a)) {
      SaveDropsOldEntry(t, st, r, newId, dump, a);
    }
  }

  /** An index entry of an attribute the save names lies outside the
      record's own keys and the id-set, so only the index commands touch it. */
  lemma IndexEntryOutsideRecord(t: EntityType, st: Store, r: Record, newId: string, dump: Value -> string, a: string, x: string)
    requires Saveable(t, r, newId)
    requires a != "id" && IsIndexed(t, a)
    ensures var r1 := WithId(t, r, newId);
      var id := SaveId(r, newId);
      var s1 := SRemEach(st, OldIndexKeys(t, r1), id);
      var s3 := ReplaceComplex(WriteFields(s1, AttrsKey(t.classKey, id), SimpleFields(t, r1, dump)), t, id, r1);
      var s4 := SAddEach(s3, NewIndexKeys(t, r1), id);
      && Agree(s1, s3, IndexKey(t.classKey, a, x))
      && Agree(s4, Save(t, st, r, newId, dump).store, IndexKey(t.classKey, a, x))
  {
    var cls, id := t.classKey, SaveId(r, newId);
    var r1, s1, s2, s3, s4 := SaveSteps(t, st, r, newId, dump);
    IndexedColonFree(t, a);
    IndexKeyNotRecordKey(cls, a, x, id, "");
    forall n | n in SavedComplex(t) ensures ComplexKey(cls, id, n) != IndexKey(cls, a, x) {
      IndexKeyNotRecordKey(cls, a, x, id, n);
    }
    Untouched(s1, s2, AttrsKey(cls, id), IndexKey(cls, a, x));
    IndexKeyNotIdsKey(cls, a, x);
    Untouched(s4, Save(t, st, r, newId, dump).store, IdsKey(cls), IndexKey(cls, a, x));
  }

  lemma SaveGainsNewEntry(t: EntityType, st: Store, r: Record, newId: string, dump: Value -> string, a: string)
    requires Saveable(t, r, newId)
    requires IndexEntriesAreSets(st, t.classKey)
    requires a != "id" && IsIndexed(t, a) && a in r.changedFrom
    requires IndexKeyFor(t.classKey, a, Get(r, a)).Some?
    ensures var nk := IndexKeyFor(t.classKey, a, Get(r, a)).value;
      Members(Save(t, st, r, newId, dump).store, nk) == Members(st, nk) + {SaveId(r, newId)}
  {
    var cls := t.classKey;
    var r1, s1, s2, s3, s4 := SaveSteps(t, st, r, newId, dump);
    assert a in IndexedChanges(t, r1);
    var nk := IndexKeyFor(cls, a, Get(r, a)).value;
    assert nk == IndexKey(cls, a, Text(Get(r, a)));
    IndexEntryOutsideRecord(t, st, r, newId, dump, a, Text(Get(r, a)));
    assert nk in NewIndexKeys(t, r1);
    assert !HoldsOtherThanSet(st, nk);
  }

  lemma SaveDropsOldEntry(t: EntityType, st: Store, r: Record, newId: string, dump: Value -> string, a: string)
    requires Saveable(t, r, newId)
    requires a != "id" && IsIndexed(t, a) && a in r.changedFrom
    requires IndexKeyFor(t.classKey, a, r.changedFrom[a]).Some?
    requires IndexKeyFor(t.classKey, a, r.changedFrom[a]) != IndexKeyFor(t.classKey, a, Get(r, a))
    ensures var ok := IndexKeyFor(t.classKey, a, r.changedFrom[a]).value;
      Members(Save(t, st, r, newId, dump).store, ok) == Members(st, ok) - {SaveId(r, newId)}
  {
    var cls := t.classKey;
    var r1, s1, s2, s3, s4 := SaveSteps(t, st, r, newId, dump);
    assert a in IndexedChanges(t, r1);
    IndexedColonFree(t, a);
    var ok := IndexKeyFor(cls, a, r.changedFrom[a]).value;
    assert ok == IndexKey(cls, a, Text(r.changedFrom[a]));
    assert ok in OldIndexKeys(t, r1);
    forall k' | k' in NewIndexKeys(t, r1) ensures k' != ok {
      var b :| b in IndexedChanges(t, r1) && IndexKeyFor(cls, b, Get(r1, b)).Some?
        && k' == IndexKeyFor(cls, b, Get(r1, b)).value;
      IndexedColonFree(t, b);
      IndexKeyInjective(cls, b, Text(Get(r1, b)), a, Text(r.changedFrom[a]));
    }
    IndexEntryOutsideRecord(t, st, r, newId, dump, a, Text(r.changedFrom[a]));
  }

  /** The index entries of an attribute the save did not change are left
      exactly as they were. */
  lemma SaveKeepsUnchangedIndexes(t: EntityType, st: Store, r: Record, newId: string, dump: Value -> string, b: string, x: string)
    requires Saveable(t, r, newId)
    requires b != "id" && b !in r.changedFrom && ColonFree(b)
    ensures Agree(st, Save(t, st, r, newId, dump).store, IndexKey(t.classKey, b, x))
  {
    var cls, id, r1 := t.classKey, SaveId(r, newId), WithId(t, r, newId);
    var k := IndexKey(cls, b, x);
    IndexKeyNotIdsKey(cls, b, x);
    IndexKeyNotRecordKey(cls, b, x, id, "");
    forall n | n in SavedComplex(t) ensures ComplexKey(cls, id, n) != k {
      IndexKeyNotRecordKey(cls, b, x, id, n);
    }
    forall k' | k' in OldIndexKeys(t, r1) || k' in NewIndexKeys(t, r1) ensures k' != k {
      var a, y := IndexStepKey(t, r1, k');
      IndexKeyInjective(cls, a, y, b, x);
    }
    SaveAgreesOutsideFootprint(t, st, r, newId, dump, k);
  }

  /** The attribute hash after a save carries each simple attribute as
      `EncodeField` renders it, or lacks the field when it renders nothing. */
  lemma SaveWritesField(t: EntityType, st: Store, r: Record, newId: string, dump: Value -> string, a: string)
    requires Saveable(t, r, newId)
    requires !HoldsOtherThanHash(st, AttrsKey(t.classKey, SaveId(r, newId)))
    requires a != "id" && a in t.attrTypes && WrittenAsField(t.attrTypes[a])
    ensures !Violates(t.attrTypes, r.attrs, a)
    ensures var h := HGetAll(Save(t, st, r, newId, dump).store, AttrsKey(t.classKey, SaveId(r, newId)));
      var e := EncodeField(t.attrTypes[a], Get(r, a), dump);
      (e.Some? ==> a in h && h[a] == e.value) && (e.None? ==> a !in h)
  {
    var r1, s1, s2, s3, s4 := SaveSteps(t, st, r, newId, dump);
    assert !Violates(t.attrTypes, r.attrs, a);
    AttrsHashLastWritten(t, st, r, newId, dump);
    assert SimpleFields(t, r1, dump)[a] == EncodeField(t.attrTypes[a], Get(r, a), dump);
    FieldKept(s1, s2, Save(t, st, r, newId, dump).store, AttrsKey(t.classKey, SaveId(r, newId)), SimpleFields(t, r1, dump), a);
  }

  /** A field written by HMSET/HDEL reads back from any later store that
      agrees on the hash. */
  lemma FieldKept(s1: Store, s2: Store, s5: Store, k: string, fields: map<string, Option<string>>, f: string)
    requires s2 == WriteFields(s1, k, fields) && Agree(s2, s5, k)
    requires !HoldsOtherThanHash(s1, k) && f in fields
    ensures fields[f].Some? ==> f in HGetAll(s5, k) && HGetAll(s5, k)[f] == fields[f].value
    ensures fields[f].None? ==> f !in HGetAll(s5, k)
  {
  }

  /** After the field write, no later command of the batch touches the
      attribute hash. */
  lemma AttrsHashLastWritten(t: EntityType, st: Store, r: Record, newId: string, dump: Value -> string)
    requires Saveable(t, r, newId)
    ensures var r1 := WithId(t, r, newId);
      var id := SaveId(r, newId);
      var s1 := SRemEach(st, OldIndexKeys(t, r1), id);
      && Agree(st, s1, AttrsKey(t.classKey, id))
      && Agree(WriteFields(s1, AttrsKey(t.classKey, id), SimpleFields(t, r1, dump)), Save(t, st, r, newId, dump).store, AttrsKey(t.classKey, id))
  {
    var cls, id := t.classKey, SaveId(r, newId);
    var ak := AttrsKey(cls, id);
    var r1, s1, s2, s3, s4 := SaveSteps(t, st, r, newId, dump);
    forall k' | k' in OldIndexKeys(t, r1) || k' in NewIndexKeys(t, r1) ensures k' != ak {
      var b, y := IndexStepKey(t, r1, k');
      IndexKeyNotRecordKey(cls, b, y, id, "");
    }
    forall n | n in SavedComplex(t) ensures ComplexKey(cls, id, n) != ak {
      ComplexKeysDistinct(cls, id, n, n);
    }
    RecordKeysNotIdsKey(cls, id, "");
    Untouched(s4, Save(t, st, r, newId, dump).store, IdsKey(cls), ak);
  }

  /** Reading a field back by declared type, as `refresh` does. */
  lemma LoadSimple(t: EntityType, st: Store, id: string, dump: Value -> string, a: string)
    requires a != "id" && a in t.attrTypes && !IsComplex(t.attrTypes[a])
    ensures var h := HGetAll(st, AttrsKey(t.classKey, id));
      Get(Load(t, st, id, dump), a) == if a in h then DecodeField(t.attrTypes[a], h[a], dump) else Nil
  {
  }

  /** Reading a complex attribute back from its own key, as `refresh` does. */
  lemma LoadComplex(t: EntityType, st: Store, id: string, dump: Value -> string, a: string)
    requires a in ComplexAttributes(t)
    ensures Get(Load(t, st, id, dump), a) == DecodeComplex(st, ComplexKey(t.classKey, id, a), t.attrTypes[a])
  {
  }

  lemma DowncaseBooleans()
    ensures Downcase("true") == "true"
    ensures Downcase("false") != "true"
  {
    assert Downcase("true")[0] == 't' && Downcase("true")[1] == 'r';
    assert Downcase("true")[2] == 'u' && Downcase("true")[3] == 'e';
  }

  /** What `refresh` makes of what save wrote for one simple attribute. */
  function ReadBack(ty: AttrType, e: Option<string>, dump: Value -> string): Value {
    match e
    case Some(text) => DecodeField(ty, text, dump)
    case None => Nil
  }

  /** Encoding a simple attribute as save does and decoding it as refresh
      does: a string comes back unless it was blank, an integer comes back,
      a boolean comes back as its truthiness (so nil reads back as false),
      and a json_string comes back serialized twice. */
  lemma FieldRoundTrip(ty: AttrType, v: Value, dump: Value -> string)
    requires WrittenAsField(ty) && (v == Nil || Accepts(ty, v))
    ensures ty == StringType ==> ReadBack(ty, EncodeField(ty, v, dump), dump) == if Blank(v) then Nil else v
    ensures ty == IntegerType ==> ReadBack(ty, EncodeField(ty, v, dump), dump) == v
    ensures ty == BooleanType ==> ReadBack(ty, EncodeField(ty, v, dump), dump) == Bool(Truthy(v))
    ensures ty == JsonStringType ==>
      ReadBack(ty, EncodeField(ty, v, dump), dump) == (if Blank(v) || BlankText(dump(v)) then Nil else Str(dump(Str(dump(v)))))
  {
    AcceptsByType(ty, v);
    if v.Int? {
      IntTextRoundTrip(v.i);
    }
    DowncaseBooleans();
  }

  /** After a save, refresh reads each simple attribute back as `ReadBack`
      of what save encoded for it. */
  lemma SaveReloadsField(t: EntityType, st: Store, r: Record, newId: string, dump: Value -> string, a: string)
    requires Saveable(t, r, newId)
    requires !HoldsOtherThanHash(st, AttrsKey(t.classKey, SaveId(r, newId)))
    requires a != "id" && a in t.attrTypes && WrittenAsField(t.attrTypes[a])
    ensures !Violates(t.attrTypes, r.attrs, a)
    ensures Get(Load(t, Save(t, st, r, newId, dump).store, SaveId(r, newId), dump), a) ==
      ReadBack(t.attrTypes[a], EncodeField(t.attrTypes[a], Get(r, a), dump), dump)
  {
    SaveWritesField(t, st, r, newId, dump, a);
    ReadBackFromHash(t, Save(t, st, r, newId, dump).store, SaveId(r, newId), dump, a,
      EncodeField(t.attrTypes[a], Get(r, a), dump));
  }

  lemma ReadBackFromHash(t: EntityType, st: Store, id: string, dump: Value -> string, a: string, e: Option<string>)
    requires a != "id" && a in t.attrTypes && WrittenAsField(t.attrTypes[a])
    requires var h := HGetAll(st, AttrsKey(t.classKey, id));
      (e.Some? ==> a in h && h[a] == e.value) && (e.None? ==> a !in h)
    ensures Get(Load(t, st, id, dump), a) == ReadBack(t.attrTypes[a], e, dump)
  {
    LoadSimple(t, st, id, dump, a);
  }

  /** Saving and reloading a simple attribute, stated per type. */
  lemma SaveReloadsSimple(t: EntityType, st: Store, r: Record, newId: string, dump: Value -> string, a: string)
    requires Saveable(t, r, newId)
    requires !HoldsOtherThanHash(st, AttrsKey(t.classKey, SaveId(r, newId)))
    requires a != "id" && a in t.attrTypes && WrittenAsField(t.attrTypes[a])
    ensures var l := Load(t, Save(t, st, r, newId, dump).store, SaveId(r, newId), dump);
      && (t.attrTypes[a] == StringType ==> Get(l, a) == if Blank(Get(r, a)) then Nil else Get(r, a))
      && (t.attrTypes[a] == IntegerType ==> Get(l, a) == Get(r, a))
      && (t.attrTypes[a] == BooleanType ==> Get(l, a) == Bool(Truthy(Get(r, a))))
      && (t.attrTypes[a] == JsonStringType ==>
            Get(l, a) == (if Blank(Get(r, a)) || BlankText(dump(Get(r, a))) then Nil else Str(dump(Str(dump(Get(r, a)))))))
  {
    SaveReloadsField(t, st, r, newId, dump, a);
    FieldRoundTrip(t.attrTypes[a], Get(r, a), dump);
  }

  /** Reading back a complex attribute's key as save leaves it: deleted when
      the value is blank, holding `Populated` otherwise. */
  lemma ComplexRoundTrip(ty: AttrType, v: Value, st: Store, k: string)
    requires IsComplex(ty) && (v == Nil || Accepts(ty, v))
    requires Blank(v) ==> k !in st
    requires !Blank(v) ==> k in st && st[k] == Populated(ty, v)
    ensures ty == SetType ==> DecodeComplex(st, k, ty) == if v == Nil then RSet({}) else v
    ensures ty == HashType ==> DecodeComplex(st, k, ty) == if v == Nil then Hash(map[]) else v
    ensures ty == ListType && v == Nil ==> DecodeComplex(st, k, ty) == Array([])
    ensures ty == ListType && v.Array? ==> DecodeComplex(st, k, ty) == v
    ensures ty == ListType && v.RSet? ==>
      DecodeComplex(st, k, ty).Array? && forall x :: x in DecodeComplex(st, k, ty).items <==> x in v.members
  {
    AcceptsByType(ty, v);
  }

  /** After a save, a complex attribute's key is gone when the value was
      blank and holds the value otherwise. */
  lemma SaveLeavesComplexKey(t: EntityType, st: Store, r: Record, newId: string, dump: Value -> string, a: string)
    requires Saveable(t, r, newId)
    requires a in SavedComplex(t)
    ensures !Violates(t.attrTypes, r.attrs, a)
    ensures var ck := ComplexKey(t.classKey, SaveId(r, newId), a);
      var s := Save(t, st, r, newId, dump).store;
      && (Blank(Get(r, a)) ==> ck !in s)
      && (!Blank(Get(r, a)) ==> ck in s && s[ck] == Populated(t.attrTypes[a], Get(r, a)))
  {
    var cls, id := t.classKey, SaveId(r, newId);
    var ck := ComplexKey(cls, id, a);
    var r1, s1, s2, s3, s4 := SaveSteps(t, st, r, newId, dump);
    var s5 := Save(t, st, r, newId, dump).store;
    assert !Violates(t.attrTypes, r.attrs, a);
    forall k' | k' in NewIndexKeys(t, r1) ensures k' != ck {
      var b, y := IndexStepKey(t, r1, k');
      IndexKeyNotRecordKey(cls, b, y, id, a);
    }
    RecordKeysNotIdsKey(cls, id, a);
    Untouched(s4, s5, IdsKey(cls), ck);
    assert Agree(s3, s5, ck);
  }

  /** Saving and reloading a complex attribute: a set or hash comes back
      (nil as the empty one), a list attribute holding an Array comes back
      in order, and one holding a Set comes back with the same elements. */
  lemma SaveReloadsComplex(t: EntityType, st: Store, r: Record, newId: string, dump: Value -> string, a: string)
    requires Saveable(t, r, newId)
    requires a in SavedComplex(t)
    ensures var l := Load(t, Save(t, st, r, newId, dump).store, SaveId(r, newId), dump);
      var v := Get(r, a);
      && (t.attrTypes[a] == SetType ==> Get(l, a) == if v == Nil then RSet({}) else v)
      && (t.attrTypes[a] == HashType ==> Get(l, a) == if v == Nil then Hash(map[]) else v)
      && (t.attrTypes[a] == ListType && v == Nil ==> Get(l, a) == Array([]))
      && (t.attrTypes[a] == ListType && v.Array? ==> Get(l, a) == v)
      && (t.attrTypes[a] == ListType && v.RSet? ==>
            Get(l, a).Array? && forall x :: x in Get(l, a).items <==> x in v.members)
  {
    var s5 := Save(t, st, r, newId, dump).store;
    var ck := ComplexKey(t.classKey, SaveId(r, newId), a);
    SaveLeavesComplexKey(t, st, r, newId, dump, a);
    ComplexRoundTrip(t.attrTypes[a], Get(r, a), s5, ck);
    LoadComplex(t, s5, SaveId(r, newId), dump, a);
  }

  // ------------------------------------------------------------- destroy

  /** A destroy touches only the id-set, the attribute hash and the index
      entries of the values the record holds. */
  lemma DestroyFrame(t: EntityType, st: Store, r: Record, k: string)
    requires IdOf(r).Some?
    requires k != IdsKey(t.classKey) && k != AttrsKey(t.classKey, IdOf(r).value) && k !in HeldIndexKeys(t, r)
    ensures Agree(st, Destroy(t, st, r).value, k)
  {
    var id := IdOf(r).value;
    var s1 := SRem(st, IdsKey(t.classKey), {id});
    var s2 := SRemEach(s1, HeldIndexKeys(t, r), id);
    Untouched(st, s1, IdsKey(t.classKey), k);
    Untouched(s2, Destroy(t, st, r).value, AttrsKey(t.classKey, id), k);
  }

  /** A destroy leaves the keys of the record's complex attributes in place:
      they outlive the record. */
  lemma DestroyKeepsComplexKeys(t: EntityType, st: Store, r: Record, name: string)
    requires WellFormed(t) && IdOf(r).Some? && ColonFree(IdOf(r).value)
    ensures Agree(st, Destroy(t, st, r).value, ComplexKey(t.classKey, IdOf(r).value, name))
  {
    var cls, id := t.classKey, IdOf(r).value;
    var ck := ComplexKey(cls, id, name);
    RecordKeysNotIdsKey(cls, id, name);
    ComplexKeysDistinct(cls, id, name, name);
    forall k | k in HeldIndexKeys(t, r) ensures k != ck {
      var a :| a in r.attrs && a != "id" && IsIndexed(t, a) && IndexKeyFor(cls, a, r.attrs[a]).Some?
        && k == IndexKeyFor(cls, a, r.attrs[a]).value;
      IndexKeyNotRecordKey(cls, a, Text(r.attrs[a]), id, name);
    }
    DestroyFrame(t, st, r, ck);
  }

  /** A destroy touches no key outside its type's namespace. */
  lemma DestroyStaysInNamespace(t: EntityType, st: Store, r: Record, k: string)
    requires IdOf(r).Some? && !InNamespace(t.classKey, k)
    ensures Agree(st, Destroy(t, st, r).value, k)
  {
    var cls, id := t.classKey, IdOf(r).value;
    KeysInNamespace(cls, id, "", "");
    forall k' | k' in HeldIndexKeys(t, r) ensures k' != k {
      var a :| a in r.attrs && a != "id" && IsIndexed(t, a) && IndexKeyFor(cls, a, r.attrs[a]).Some?
        && k' == IndexKeyFor(cls, a, r.attrs[a]).value;
      KeysInNamespace(cls, id, a, Text(r.attrs[a]));
    }
    DestroyFrame(t, st, r, k);
  }

  /** A saved record is persisted, and destroying it unpersists it. */
  lemma SaveThenDestroy(t: EntityType, st: Store, r: Record, newId: string, dump: Value -> string)
    requires Saveable(t, r, newId)
    requires !HoldsOtherThanSet(st, IdsKey(t.classKey))
    ensures var res := Save(t, st, r, newId, dump);
      && res.Saved? && Persisted(res.store, t, res.record)
      && Destroy(t, res.store, res.record).Some?
      && !Persisted(Destroy(t, res.store, res.record).value, t, res.record)
  {
    SaveAddsId(t, st, r, newId, dump);
  }
}

=== FILE: schema.dfy ===
/** Attribute types and the per-type declarations a record class makes:
    `define_attributes`, `index_by`, and the table of Ruby classes each
    attribute type accepts. */
module Schema {
  import opened Ruby
  import opened Keys

  datatype AttrType =
    | StringType | IntegerType | IdType | TimestampType | BooleanType
    | ListType | SetType | HashType | JsonStringType

  /** The symbol that names each type in a declaration. */
  function TypeName(t: AttrType): string {
    match t
    case StringType => "string"
    case IntegerType => "integer"
    case IdType => "id"
    case TimestampType => "timestamp"
    case BooleanType => "boolean"
    case ListType => "list"
    case SetType => "set"
    case HashType => "hash"
    case JsonStringType => "json_string"
  }

  /** The type a declared name stands for, if it is one of the known kinds. */
  function TypeNamed(name: string): Option<AttrType> {
    if name == "string" then Some(StringType)
    else if name == "integer" then Some(IntegerType)
    else if name == "id" then Some(IdType)
    else if name == "timestamp" then Some(TimestampType)
    else if name == "boolean" then Some(BooleanType)
    else if name == "list" then Some(ListType)
    else if name == "set" then Some(SetType)
    else if name == "hash" then Some(HashType)
    else if name == "json_string" then Some(JsonStringType)
    else None
  }

  /** The known type names are exactly the names of the nine kinds. */
  lemma TypeNamesRoundTrip(t: AttrType, name: string)
    ensures TypeNamed(TypeName(t)) == Some(t)
    ensures TypeNamed(name).Some? ==> TypeName(TypeNamed(name).value) == name
  {
  }

  /** The classes each type accepts, in declaration order. */
  function AcceptedClasses(t: AttrType): seq<RubyClass> {
    match t
    case StringType => [StringClass]
    case IntegerType => [IntegerClass]
    case IdType => [StringClass]
    case TimestampType => [IntegerClass, DateTimeClass]
    case BooleanType => [TrueClass, FalseClass]
    case ListType => [Enumerable]
    case SetType => [SetClass]
    case HashType => [HashClass]
    case JsonStringType => [StringClass, IntegerClass, Enumerable, SetClass, HashClass]
  }

  /** The types stored under keys of their own rather than as hash fields. */
  predicate IsComplex(t: AttrType) {
    t == ListType || t == SetType || t == HashType
  }

  /** A record class: its key prefix, declared attribute types and indexed
      attributes (in `index_by` order). */
  datatype EntityType = EntityType(classKey: string, attrTypes: map<string, AttrType>, indexed: seq<string>)

  predicate IsIndexed(t: EntityType, a: string) {
    a in t.indexed
  }

  /** A class as the mixin leaves it: `id` declared as a string, nothing indexed. */
  function NewEntityType(cls: string): (t: EntityType)
    ensures t.classKey == cls
    ensures t.attrTypes.Keys == {"id"} && t.attrTypes["id"] == StringType
    ensures forall a :: !IsIndexed(t, a)
  {
    EntityType(cls, map["id" := StringType], [])
  }

  /** The mixin's `define_attributes :id => :string` on a class with no
      attributes yields the new class, and that class is one the proofs
      accept. */
  lemma NewEntityTypeDeclaresId(cls: string)
    ensures DefineAttributes(EntityType(cls, map[], []), [("id", "string")]) == Defined(NewEntityType(cls))
    ensures ColonFree(cls) ==> WellFormed(NewEntityType(cls))
  {
  }

  /** What the proofs assume of a class: `id` is a string attribute, and no
      attribute name contains ':' (names become Ruby method names). */
  predicate WellFormed(t: EntityType) {
    && "id" in t.attrTypes && t.attrTypes["id"] == StringType
    && (forall a :: a in t.attrTypes ==> ColonFree(a))
    && (forall i :: 0 <= i < |t.indexed| ==> ColonFree(t.indexed[i]))
  }

  datatype Definition =
    | Defined(entity: EntityType)
    | UnknownType(attribute: string, typeName: string)

  /** The text of the error raised for an unknown type. */
  function UnknownTypeMessage(attribute: string, typeName: string): string {
    "Unknown attribute type ':" + typeName + "' for ':" + attribute + "'"
  }

  predicate DistinctNames(options: seq<(string, string)>) {
    forall i, j :: 0 <= i < j < |options| ==> options[i].0 != options[j].0
  }

  /** `define_attributes`: the first pair whose type is unknown raises, and
      then nothing is declared; otherwise every pair is declared at once. */
  function DefineAttributes(t: EntityType, options: seq<(string, string)>): (r: Definition)
    requires DistinctNames(options)
    ensures r.Defined? <==> forall i :: 0 <= i < |options| ==> TypeNamed(options[i].1).Some?
    ensures r.UnknownType? ==>
      exists i :: 0 <= i < |options| && TypeNamed(options[i].1).None?
        && (forall j :: 0 <= j < i ==> TypeNamed(options[j].1).Some?)
        && r == UnknownType(options[i].0, options[i].1)
    ensures r.Defined? ==> r.entity.classKey == t.classKey && r.entity.indexed == t.indexed
    ensures r.Defined? ==> forall i :: 0 <= i < |options| ==>
      options[i].0 in r.entity.attrTypes && Some(r.entity.attrTypes[options[i].0]) == TypeNamed(options[i].1)
    ensures r.Defined? ==> forall a :: a in r.entity.attrTypes <==>
      a in t.attrTypes || exists i :: 0 <= i < |options| && options[i].0 == a
    ensures r.Defined? ==> forall a :: a in t.attrTypes && (forall i :: 0 <= i < |options| ==> options[i].0 != a) ==>
      r.entity.attrTypes[a] == t.attrTypes[a]
  {
    if options == [] then Defined(t)
    else
      match TypeNamed(options[0].1)
      case None => UnknownType(options[0].0, options[0].1)
      case Some(ty) =>
        var rest := options[1..];
        assert forall i :: 0 <= i < |rest| ==> rest[i] == options[i + 1];
        match DefineAttributes(t, rest)
        case UnknownType(a, n) => UnknownType(a, n)
        case Defined(e) => Defined(e.(attrTypes := e.attrTypes[options[0].0 := ty]))
  }

  /** How the class-level methods are declared: the lookups are public, the
      declarations protected, and `class_key`, `load` and `associate`
      private. The generated `<att>_index` readers are public. */
  datatype Visibility = Public | Protected | Private

  function ClassMethodVisibility(name: string): Visibility {
    if name in {"define_attributes", "indexed_attributes", "index_by", "has_many", "has_sorted_set"} then Protected
    else if name in {"class_key", "load", "associate"} then Private
    else Public
  }

  /** Whether a class-level method can be called from outside the class:
      called on an explicit receiver only when public; `send` ignores
      visibility. */
  predicate CallableFromOutside(name: string, viaSend: bool) {
    viaSend || ClassMethodVisibility(name) == Public
  }

  /** `index_by`: appends to the indexed attributes; declares nothing. */
  function IndexBy(t: EntityType, atts: seq<string>): (r: EntityType)
    ensures forall a :: IsIndexed(r, a) <==> IsIndexed(t, a) || a in atts
    ensures r.attrTypes == t.attrTypes && r.classKey == t.classKey
  {
    t.(indexed := t.indexed + atts)
  }
}

=== FILE: validation.dfy ===
/** The type validator run before every save: it visits every declared
    attribute, skips nil values, and reports each attribute whose value is
    not an instance of a class its type accepts, without stopping early. */
module Validation {
  import opened Ruby
  import opened Schema

  /** `valid_type.any? {|type| value.is_a?(type) }` */
  predicate Accepts(t: AttrType, v: Value) {
    AnyIsA(v, AcceptedClasses(t))
  }

  /** The attribute `a` holds a value its declared type does not accept. */
  predicate Violates(schema: map<string, AttrType>, attrs: map<string, Value>, a: string) {
    a in schema && Lookup(attrs, a) != Nil && !Accepts(schema[a], Lookup(attrs, a))
  }

  /** Every error the validator reports, keyed by attribute, with the classes
      the attribute's type accepts. */
  function TypeErrors(schema: map<string, AttrType>, attrs: map<string, Value>): map<string, seq<RubyClass>> {
    map a | a in schema && Violates(schema, attrs, a) :: AcceptedClasses(schema[a])
  }

  /** The record passes validation. */
  predicate Valid(schema: map<string, AttrType>, attrs: map<string, Value>) {
    forall a :: a in schema ==> !Violates(schema, attrs, a)
  }

  /** What each type accepts, stated per type rather than as a class list. */
  lemma AcceptsByType(t: AttrType, v: Value)
    ensures Accepts(t, v) <==>
      match t
      case StringType => v.Str?
      case IdType => v.Str?
      case IntegerType => v.Int?
      case TimestampType => v.Int? || v.DateTime?
      case BooleanType => v.Bool?
      case ListType => v.Array? || v.RSet? || v.Hash?
      case SetType => v.RSet?
      case HashType => v.Hash?
      case JsonStringType => v.Str? || v.Int? || v.Array? || v.RSet? || v.Hash?
  {
    var cs := AcceptedClasses(t);
    match t
    case TimestampType =>
      if v.Int? { assert IsA(v, cs[0]); }
      if v.DateTime? { assert IsA(v, cs[1]); }
    case BooleanType =>
      if v == Bool(true) { assert IsA(v, cs[0]); }
      if v == Bool(false) { assert IsA(v, cs[1]); }
    case JsonStringType =>
      if v.Str? { assert IsA(v, cs[0]); }
      if v.Int? { assert IsA(v, cs[1]); }
      if v.Array? || v.RSet? || v.Hash? { assert IsA(v, cs[2]); }
    case _ =>
      if match t
         case StringType => v.Str?
         case IdType => v.Str?
         case IntegerType => v.Int?
         case ListType => v.Array? || v.RSet? || v.Hash?
         case SetType => v.RSet?
         case HashType => v.Hash?
         case _ => false
      {
        assert IsA(v, cs[0]);
      }
  }

  /** The validator: one pass over the declared attributes, collecting an
      error for each violation. */
  method Validate(schema: map<string, AttrType>, attrs: map<string, Value>) returns (errors: map<string, seq<RubyClass>>)
    ensures forall a :: a in errors <==> Violates(schema, attrs, a)
    ensures forall a :: a in errors ==> a in schema && errors[a] == AcceptedClasses(schema[a])
    ensures errors == TypeErrors(schema, attrs)
    ensures errors == map[] <==> Valid(schema, attrs)
  {
    errors := map[];
    var todo := schema.Keys;
    while todo != {}
      invariant todo <= schema.Keys
      invariant forall a :: a in errors <==> a in schema && a !in todo && Violates(schema, attrs, a)
      invariant forall a :: a in errors ==> a in schema && errors[a] == AcceptedClasses(schema[a])
      decreases todo
    {
      var a :| a in todo;
      var v := Lookup(attrs, a);
      if v != Nil && !Accepts(schema[a], v) {
        errors := errors[a := AcceptedClasses(schema[a])];
      }
      todo := todo - {a};
    }
    assert errors.Keys == TypeErrors(schema, attrs).Keys;
    if errors == map[] {
      forall a | a in schema ensures !Violates(schema, attrs, a) {
        assert a !in errors;
      }
    }
  }
}
